=== FILE: README.md ===
# Bareos director console client: protocol core in Dafny

This project models the console client with which a program talks to a
Bareos director (the `bareos.bsock` Python package), and proves properties
of the model:

- **Framing.** `send` and `recv` carry frames: a 4-byte big-endian signed
  32-bit length, then that many payload bytes when the length is positive. A
  length of zero or below carries no payload and is a status code.
- **Message assembly.** `recv_msg` joins frames into one answer. It stops at a
  terminating status (end of data, main prompt or sub prompt), at an empty
  header or at a socket error. It ignores header timeouts and records the
  last status it read.
- **The mutual CRAM-MD5 handshake.** `auth` sends a hello. The client then
  answers the director's challenge (`_cram_md5_respond`) and challenges the
  director in turn (`_cram_md5_challenge`). It accepts the director's reply
  in either of two base64 dialects and acknowledges it exactly once. The
  scheme follows section 2 of RFC 2195, with HMAC-MD5 per section 2 of
  RFC 2104.
- **`call`.** `send` plus `recv_msg`, with at most one reconnect and one
  retry.

## How the model is built

The socket is a script of events (`Transport.Event`):

- `Data(b)` is one delivery. `recv(n)` takes at most `n` bytes of it and the
  rest stays for the next read.
- `Timeout` is a read timeout.
- `Fail` is a socket error.
- An empty delivery, or the end of the script, means the peer has closed.

Every operation is a pure function of the session record and the script. It
returns a `Step`: the value returned or the exception raised, the session
afterwards, the rest of the script, and the buffers handed to `sendall`
(when `sendall` raises, an unknown prefix of the last one has reached the
peer). An
announced payload whose peer closes before the first byte makes the Python
loop spin for ever; the model returns this as the error `Hang`.

These are parameters:

- HMAC-MD5, the two base64 dialects and the fixed protocol messages are
  fields of a `Handshake.Protocol` record.
- The nonce and the clock are arguments of `CramMd5Challenge` and `Auth`.
- The status constants are a `LowLevel.Codes` record.
- Which errors `__call` catches is a classifier argument.
- `reconnect()` is an oracle argument.

The two length-accounting quirks of the source are modelled as written:

- The payload loop subtracts the length of the whole buffer, not of the piece
  just received (`bareos/bsock/lowlevel.py:115` and `:155`).
  `Transport.Drain` models that shared loop.
  - A payload delivered in one piece is read exactly.
  - A payload in two pieces is still read whole by `recv`
    (`RecvLemmas.RecvTwoPieces`).
  - In three pieces, bytes are left behind (`Transport.ThreePiecesLoseBytes`,
    `RecvLemmas.RecvThreePieces`).
- `recv_msg` appends the cumulative buffer after every piece
  (`bareos/bsock/lowlevel.py:154-156`). A payload in two pieces therefore
  contributes its first piece twice (`RecvLemmas.RecvMsgTwoPieces`).

A director's bytes reach the client cut into deliveries. `recv(4)` or
`recv(n)` gets all it asks for only when no delivery ends inside that header
or payload. A delivery plan (`Delivery.Piece`) lists the units of the stream,
payload frames and status headers, and says for each one:

- whether its header comes in a delivery of its own (payload frames only);
- whether a delivery ends right after it.

`Delivery.Chunks` gives the deliveries of a plan and `Delivery.Deliver` makes
them a script. `Delivery.ChunksCarryStream` proves that the deliveries, one
after the other, are exactly the encoded units followed by what comes next.
The round trips (`RecvLemmas.RecvPiece`, `RecvLemmas.RecvMsgUntilStatus`,
`RecvLemmas.PromptScript` and the handshake script lemmas) hold for every
plan. A plan with no cuts is the whole stream in one delivery
(`Delivery.WholeStream`). Cuts inside a payload are the quirk cases above.
The script is fixed in advance, while a director answers only after it has
read what the client sent. A plan that ends a delivery after every frame
models that exchange: each answer is a delivery of its own.

Other behaviour of the code that a reader might not expect, modelled as
written:

- `_cram_md5_challenge` compares the reply after `strip(chr(0))`, which
  removes NUL bytes at both ends, not only at the end
  (`bareos/bsock/lowlevel.py:178`, `Text.StripNul`).
- Socket errors are not treated the same way everywhere:
  - `send` catches `socket.error` and clears the socket
    (`bareos/bsock/lowlevel.py:95-96`).
  - `recv_msg` catches it and returns what it has assembled
    (`bareos/bsock/lowlevel.py:157-159`).
  - `recv` lets it through (`bareos/bsock/lowlevel.py:99-116`).
- `__call` starts from `result = ''` (`bareos/bsock/bsock.py:35`). A handled
  failure at count 1, or a failed reconnect, returns the empty string
  (`BSock.CallGivesUp`, `BSock.CallRetriesOnce`).
- An empty header is handled differently by each operation:
  - `recv` raises `RuntimeError` (`bareos/bsock/lowlevel.py:105-107`).
  - `recv_msg` ends the message quietly (`bareos/bsock/lowlevel.py:134-136`).
- `__call` catches only `SocketEmptyHeader` and `ConnectionLostError`
  (`bareos/bsock/bsock.py:39`). `send` and `recv_msg` raise only
  `RuntimeError` or `struct.error`, never one of those two, so as written
  the retry never runs (`BSock.NoRetryAsWritten`). The general retry lemmas
  take the classifier as a parameter.
- The ssl flag is whatever digit stands at index 4 of the fourth field
  (`bareos/bsock/lowlevel.py:220`), not only 0 or 1.

## Model

| member | source | states |
|---|---|---|
| `Framing.UnpackPack` | bareos/bsock/lowlevel.py:93 | unpacking the `!i` header that `send` packs gives back the length, for every signed 32-bit value |
| `Framing.Pack` | bareos/bsock/lowlevel.py:93 | `struct.pack("!i", n)` is four bytes, and the top bit of the first is set exactly when n is negative |
| `Framing.PackUnpack` | bareos/bsock/lowlevel.py:109 | every 4-byte header is the packing of the value it unpacks to, so pack and unpack are inverse bijections |
| `Framing.Unpack` | bareos/bsock/lowlevel.py:143 | a header decodes to a signed 32-bit value that is negative exactly when the top bit of the first byte is set |
| `Framing.Frame` | bareos/bsock/lowlevel.py:89-93 | the frame for a message is 4 + len(msg) bytes, its header decodes to len(msg), and the bytes after the header are the message |
| `LowLevel.Send` | bareos/bsock/lowlevel.py:85-96 | no socket: RuntimeError and nothing written or consumed; a message too long for the header: struct.error and nothing written; on an open socket with a short enough message exactly one frame of the message is handed to `sendall`; if that raises a socket error, the error is swallowed, the socket is cleared and nothing else changes |
| `LowLevel.HandleSocketError` | bareos/bsock/lowlevel.py:253-255 | the socket is unset and every other attribute is unchanged |
| `LowLevel.SetStatus` | bareos/bsock/lowlevel.py:239-240 | status becomes the code read and every other attribute is unchanged |
| `LowLevel.Connect` | bareos/bsock/lowlevel.py:38-53 | address and port are stored; the director name is the given one when it is non-empty, else the address; success opens a blocking socket; an unresolved name clears the socket and raises ConnectionError; other connect errors leave the old socket and what was still to be read from it; a new connection reads what the director sends on it |
| `LowLevel.ConnectThenSend` | bareos/bsock/lowlevel.py:46-47 | after a connection opens, `send` hands its frame to the new socket and `recv` reads the new connection's input, whatever the session held before |
| `LowLevel.Recv` | bareos/bsock/lowlevel.py:99-116 | no socket raises RuntimeError and consumes nothing; a closed peer raises "get the msglen error"; the session never changes and nothing is written; only the listed exceptions can escape |
| `LowLevel.RecvMsg` | bareos/bsock/lowlevel.py:119-159 | no socket: RuntimeError and nothing consumed; nothing is written; only the socket and the status may change, and the socket is never left blocking; only RuntimeError, struct.error or a hang can escape |
| `LowLevel.RecvMsgLoop` | bareos/bsock/lowlevel.py:126-156 | each turn only extends the message assembled so far, keeps every attribute except socket and status, and leaves the socket timed or unset |
| `LowLevel.SetStateDirectorPrompt` | bareos/bsock/lowlevel.py:245-250 | sends "." exactly once when there is a socket, returns True whenever it returns, and raises without sending when there is no socket |
| `Transport.Read` | bareos/bsock/lowlevel.py:104 | `recv(n)` returns at most n bytes, returns the empty string once the peer has closed, and raises a timeout only on a timed socket |
| `Transport.ReadWhole` | bareos/bsock/lowlevel.py:114 | when the next delivery holds at least n bytes, `recv(n)` takes exactly the first n and leaves the rest |
| `Transport.Drain` | bareos/bsock/lowlevel.py:151-156 | the payload loop: each buffer value extends the one before; it never spins unless nothing at all was received; a non-positive length reads nothing |
| `Transport.DrainSpinsOnlyWhenClosed` | bareos/bsock/lowlevel.py:113-115 | the payload loop never ends exactly when its first `recv` returns the empty string |
| `Transport.DrainWhole` | bareos/bsock/lowlevel.py:113-115 | a payload delivered in one piece is read in one iteration and nothing after it is consumed |
| `Transport.DrainTwoPieces` | bareos/bsock/lowlevel.py:113-115 | a payload in two pieces ends the loop after two iterations whose buffers are the first piece and then both |
| `Transport.ThreePiecesLoseBytes` | bareos/bsock/lowlevel.py:115 | because the whole buffer is subtracted, a 10-byte payload in pieces of 3, 3 and 4 stops after 7 bytes and leaves 3 in the socket |
| `LowLevel.LastBufferHoldsAll` | bareos/bsock/lowlevel.py:113-116 | the value `recv` returns (`LowLevel.LastBuffer`, the buffer after the last turn of the payload loop) has the starting buffer and every earlier buffer value as prefixes, so nothing the loop received is missing from it |
| `Delivery.ChunksCarryStream` | bareos/bsock/lowlevel.py:104-114 | the deliveries of any plan, one after the other, are exactly the encoded units followed by what comes next: no byte is lost, added or reordered |
| `Delivery.WholeStream` | bareos/bsock/lowlevel.py:104-114 | a plan that never cuts the stream delivers all of it as one piece |
| `Delivery.FirstPiece` | bareos/bsock/lowlevel.py:104-114 | the first unit of a plan arrives whole at the head of a delivery, or as a header delivery followed by one that starts with its payload; after it come exactly the deliveries of the remaining units |
| `RecvLemmas.RecvFrame` | bareos/bsock/lowlevel.py:104-116 | round trip: `recv` on a frame, delivered whole or with its header in a delivery of its own, returns its payload and leaves what follows unread |
| `RecvLemmas.RecvStep` | bareos/bsock/lowlevel.py:104-116 | once the header read yields a signed 32-bit length and the payload loop fills its buffers, `recv` returns the last buffer value, leaves what the loop left unread, and changes and writes nothing |
| `RecvLemmas.RecvSignal` | bareos/bsock/lowlevel.py:109-112 | a header of zero or below makes `recv` return the empty string without reading a payload |
| `RecvLemmas.RecvPiece` | bareos/bsock/lowlevel.py:104-116 | round trip for any delivery plan: `recv` returns the payload of the first unit (the empty string for a status header) and leaves exactly the script of the remaining units |
| `RecvLemmas.RecvTwoPieces` | bareos/bsock/lowlevel.py:113-116 | a payload delivered in two pieces is still returned whole by `recv`, which returns the last buffer value (`LowLevel.LastBuffer`) |
| `RecvLemmas.RecvThreePieces` | bareos/bsock/lowlevel.py:113-116 | pieces of 3, 3 and 4 bytes: `recv` returns 7 bytes and the other 3 stay in the socket |
| `RecvLemmas.RecvHangsOnClose` | bareos/bsock/lowlevel.py:113-115 | if the peer closes right after announcing a payload, `recv` never returns |
| `RecvLemmas.LoopTimeoutMode` | bareos/bsock/lowlevel.py:128 | the socket's timeout before a turn makes no difference, since each header read sets it to 0.1 s |
| `RecvLemmas.RecvMsgStart` | bareos/bsock/lowlevel.py:121-128 | on an open socket, `recv_msg` is its loop started with an empty message in timed mode |
| `RecvLemmas.PayloadStep` | bareos/bsock/lowlevel.py:150-156 | a turn over a positive header appends the loop's buffers and goes on |
| `RecvLemmas.SignalStep` | bareos/bsock/lowlevel.py:143-149 | a status header sets the status; one equal to end of data, main prompt or sub prompt (`LowLevel.Terminal`) returns the message and reads nothing after it, any other one goes on without adding bytes |
| `RecvLemmas.UnitStep` | bareos/bsock/lowlevel.py:143-156 | one non-terminating frame delivered whole adds exactly its payload, or for a status nothing, and updates the status |
| `RecvLemmas.SplitStep` | bareos/bsock/lowlevel.py:128-156 | a payload frame whose header came in a delivery of its own adds exactly its payload and leaves what follows the payload |
| `RecvLemmas.PieceStep` | bareos/bsock/lowlevel.py:126-156 | one turn over the first unit of any delivery plan adds its payload, or for a status nothing and updates the status, and leaves the rest of the plan |
| `RecvLemmas.RecvMsgPrefix` | bareos/bsock/lowlevel.py:126-156 | reading the non-terminating units of any delivery plan appends their payloads in order and leaves the status at their last signal |
| `RecvLemmas.RecvMsgUntilStatus` | bareos/bsock/lowlevel.py:126-156 | units in any delivery plan, then a terminating status: `recv_msg` returns the concatenated payloads, records that status, and consumes nothing past its header; other status codes add no bytes |
| `RecvLemmas.PromptScript` | bareos/bsock/lowlevel.py:245-250 | against a director whose answer, delivered in any plan, ends in a terminating status, the prompt probe sends one "." frame, drains exactly that answer and returns True |
| `RecvLemmas.RecvMsgUntilClosed` | bareos/bsock/lowlevel.py:134-136 | units in any delivery plan, then the peer closing: `recv_msg` returns the payloads without raising, and the status is the last signal read |
| `RecvLemmas.RecvMsgSocketError` | bareos/bsock/lowlevel.py:157-159 | units in any delivery plan, then a socket error: the socket is cleared and the payloads assembled so far are returned |
| `RecvLemmas.RecvMsgIgnoresTimeouts` | bareos/bsock/lowlevel.py:129-132 | on an open socket, any number of header timeouts in front of the input change nothing about `recv_msg` |
| `RecvLemmas.LoopSkipsTimeouts` | bareos/bsock/lowlevel.py:129-132 | the loop passes over header timeouts without changing the message or the status |
| `RecvLemmas.PayloadThenStatus` | bareos/bsock/lowlevel.py:143-156 | one announced payload followed by a terminating status: `recv_msg` returns the concatenation of the loop's buffer values |
| `RecvLemmas.RecvMsgTwoPieces` | bareos/bsock/lowlevel.py:154-156 | a payload in two pieces a, b makes `recv_msg` return a + (a + b), the first piece twice |
| `Text.Split` | bareos/bsock/lowlevel.py:217 | `split(" ")` gives at least one field and no field contains the separator |
| `Text.JoinSplit` | bareos/bsock/lowlevel.py:217 | joining the fields of a split with the separator gives the line back |
| `Text.SplitCons` | bareos/bsock/lowlevel.py:217 | a line splits at its first separator: the first field, then the fields of the rest |
| `Text.SplitJoin` | bareos/bsock/lowlevel.py:217 | fields without the separator, joined, split back into exactly those fields |
| `Text.StripNul` | bareos/bsock/lowlevel.py:178 | `strip(chr(0))` returns the part of the string between an all-NUL prefix and an all-NUL suffix, and it neither starts nor ends with NUL |
| `Text.StripNulBetween` | bareos/bsock/lowlevel.py:178 | any split of a string into NULs, a part not starting or ending with NUL, and NULs strips to that part |
| `Text.StripNulPadding` | bareos/bsock/lowlevel.py:178 | a reply padded with NULs on either side strips back to the reply |
| `Text.DigitChar` | bareos/bsock/lowlevel.py:220 | `int()` of the digit character for d gives back d |
| `Text.Decimal` | bareos/bsock/lowlevel.py:173-174 | `%u` / `%d` renders a non-negative integer as a non-empty string of digits |
| `Text.DecimalValue` | bareos/bsock/lowlevel.py:173 | the rendered digits read back as the number, with no leading zero |
| `Text.DecimalLength` | bareos/bsock/lowlevel.py:171-173 | a rendering has at most k+1 digits exactly when the number is below 10^(k+1) |
| `Handshake.ParseChallenge` | bareos/bsock/lowlevel.py:217-220 | parsing fails only with the IndexError/ValueError case; on success the challenge holds no space and ssl is a single digit |
| `Handshake.CramMd5Respond` | bareos/bsock/lowlevel.py:200-236 | no socket or a closed peer (the RuntimeError cases): (0, True, False) and nothing sent; at most one frame, the base64 of an HMAC under the password; success requires that frame to have been sent; `compatible` is always True |
| `Handshake.CheckReply` | bareos/bsock/lowlevel.py:178-195 | once the reply is read and the verdict returned, exactly one acknowledgement has been sent, `auth_ok` exactly when the verdict is True, else `auth_failed`; no reply read means nothing sent |
| `Handshake.CramMd5Challenge` | bareos/bsock/lowlevel.py:162-198 | the first frame sent is the challenge line built from the nonce, the time and the client name; whenever a verdict is returned, exactly one acknowledgement follows the line and it matches the verdict; no socket raises before sending |
| `Handshake.Auth` | bareos/bsock/lowlevel.py:58-76 | a non-Password argument raises before anything is sent; the first frame sent is the hello; success, and the client rejecting the reply, both come after exactly four frames; a failed respond raises after at most hello and response |
| `Handshake.AuthAfterHello` | bareos/bsock/lowlevel.py:71-76 | a failed respond raises AuthenticationError after at most one frame, so the challenge sends nothing; success and "failed challenge" come after exactly three frames |
| `HandshakeLemmas.ChallengeNonceDigits` | bareos/bsock/lowlevel.py:171 | every nonce drawn from [1000000000, 9999999999] renders as exactly ten digits |
| `Handshake.ChallengeString` | bareos/bsock/lowlevel.py:173 | the challenge is `<`, the digits of the nonce, `.`, the digits of the time, `@`, the client name and `>`, in that order and with nothing else |
| `HandshakeLemmas.NonceDigits` | bareos/bsock/lowlevel.py:173 | in a challenge, the nonce's digits run from after `<` up to the first `.` |
| `HandshakeLemmas.ChallengeStringInjective` | bareos/bsock/lowlevel.py:171-173 | for one client name, a challenge determines the nonce and the time: two challenges are equal only when both nonce and time are |
| `Handshake.ChallengeLine` | bareos/bsock/lowlevel.py:174 | the line starts with "auth cram-md5 " followed by the challenge, and ends with a newline |
| `HandshakeLemmas.ChallengeStringHasNoSpace` | bareos/bsock/lowlevel.py:173 | for a client name without spaces the challenge string has no space, so it stays one field of the line |
| `HandshakeLemmas.ParseChallengeFields` | bareos/bsock/lowlevel.py:217-220 | a parsed line consists of at least four space-free fields; the challenge is the third and ssl is the digit at index 4 of the fourth |
| `HandshakeLemmas.SplitFour` | bareos/bsock/lowlevel.py:217 | a line of four space-free fields splits into exactly those four fields |
| `HandshakeLemmas.ParseFour` | bareos/bsock/lowlevel.py:217-220 | from a line of four space-free fields, parsing takes the third field and the digit at index 4 of the fourth |
| `HandshakeLemmas.ParseFields` | bareos/bsock/lowlevel.py:217-220 | a line of any number of space-free fields parses to the third field and the digit at index 4 of the fourth when there are at least four fields and that digit exists, and fails otherwise |
| `HandshakeLemmas.ParseSplit` | bareos/bsock/lowlevel.py:217-220 | parsing depends only on the fields of the split, and succeeds exactly when there are four and the fourth has a digit at index 4 |
| `HandshakeLemmas.ChallengeLineFields` | bareos/bsock/lowlevel.py:174 | the unfolding step that `AnyChallengeLineParses` starts from: the line regrouped as the fields "auth", "cram-md5", the challenge and "ssl=N\n" with a space between each |
| `HandshakeLemmas.AnyChallengeLineParses` | bareos/bsock/lowlevel.py:174 | any challenge line with a space-free challenge and a one-digit flag parses back to that challenge and flag |
| `HandshakeLemmas.ChallengeLineParses` | bareos/bsock/lowlevel.py:171-174 | the line the client sends when it challenges is in the format the client parses when it is challenged: parsing returns the nonce string and the flag |
| `HandshakeLemmas.SslField` | bareos/bsock/lowlevel.py:174 | the last field "ssl=N\n" has its digit at index 4 and no space |
| `HandshakeLemmas.AcceptsEitherDialect` | bareos/bsock/lowlevel.py:178-189 | the comparison (`Handshake.Accepts`): a reply, NUL-padded or not, is accepted exactly when it equals the compatible or the non-compatible base64 of HMAC(password, challenge) |
| `HandshakeLemmas.RespondReads` | bareos/bsock/lowlevel.py:210-236 | given what its two reads return, a parsable challenge line and then an acknowledgement: exactly the response frame is sent, and the result carries the line's ssl flag and whether `is_auth_ok` holds of the acknowledgement |
| `HandshakeLemmas.ChallengeReads` | bareos/bsock/lowlevel.py:171-198 | given what its read returns: the challenge line is sent, then one acknowledgement that matches the verdict on the reply, and that verdict is returned |
| `HandshakeLemmas.RespondScript` | bareos/bsock/lowlevel.py:210-236 | challenge line then acknowledgement, in any delivery plan: one frame is sent, the base64 of HMAC(password, third field); both frames are read and the rest of the plan is left; the result is true exactly when `is_auth_ok` holds of the acknowledgement |
| `HandshakeLemmas.CheckReplyScript` | bareos/bsock/lowlevel.py:178-195 | a reply frame, however delivered, is read, and then exactly one acknowledgement is sent, `auth_ok` exactly when the reply is accepted |
| `HandshakeLemmas.ChallengeScript` | bareos/bsock/lowlevel.py:171-198 | in any delivery plan, the client sends its challenge line, reads one reply, sends exactly one acknowledgement (`auth_ok` iff accepted, else `auth_failed`) and returns the verdict |
| `HandshakeLemmas.AfterHelloSteps` | bareos/bsock/lowlevel.py:71-76 | after the hello: respond, then challenge only if respond succeeded, with the writes in that order and the matching AuthenticationError |
| `HandshakeLemmas.AfterHelloOrder` | bareos/bsock/lowlevel.py:71-76 | whenever `auth` gets past the respond step (success or "failed challenge"), the three frames after the hello are, in order, the base64 of an HMAC under the password, the challenge line built from the nonce, the time and the client name, and `auth_ok` on success or `auth_failed` on "failed challenge" |
| `HandshakeLemmas.AuthSteps` | bareos/bsock/lowlevel.py:67-69 | with a Password, the hello frame is written before everything the handshake writes |
| `HandshakeLemmas.AuthBothWays` | bareos/bsock/lowlevel.py:67-76 | a successful respond followed by any outcome of the challenge: hello, response and the challenge's two frames are sent in that order, and the challenge verdict decides between True and "failed challenge" |
| `HandshakeLemmas.AuthReads` | bareos/bsock/lowlevel.py:58-76 | given what the three reads return, with the response acknowledged: hello, response, challenge line and the acknowledgement of the reply are sent in order, and the verdict on the reply decides the outcome |
| `HandshakeLemmas.ThreeReads` | bareos/bsock/lowlevel.py:104-116 | three `recv` calls read the first three units of any delivery plan one after another; each leaves the script of the units after it, and each finds the socket writable |
| `HandshakeLemmas.AuthAnswered` | bareos/bsock/lowlevel.py:58-76 | a director that sends a challenge line, acknowledges the response and sends a reply, in any delivery plan: `auth` sends four frames in order, reads exactly the three frames, and returns True exactly when the reply is accepted, else raises "failed challenge" |
| `HandshakeLemmas.AuthAccepted` | bareos/bsock/lowlevel.py:58-76 | against a director that follows the protocol, however its frames are delivered, `auth` sends hello, response, challenge line and `auth_ok`, in that order, reads exactly the three frames and returns True |
| `HandshakeLemmas.AuthReplyRejected` | bareos/bsock/lowlevel.py:74-75 | when the client rejects the director's reply, in any delivery plan, `auth_failed` is still sent and then "failed challenge" is raised |
| `HandshakeLemmas.AuthResponseRejected` | bareos/bsock/lowlevel.py:71-73 | when the director rejects the response, in any delivery plan, "failed respond" is raised after hello and response, and the client's challenge never starts |
| `BSock.Exchange` | bareos/bsock/bsock.py:37-38 | send then `recv_msg`: on an open socket a command short enough for the header is sent as exactly its frame; at most one frame written; only RuntimeError, struct.error or a hang escape; no socket raises with nothing consumed |
| `BSock.CallAt` | bareos/bsock/bsock.py:30-44 | the trace is one of: one attempt; attempt and failed reconnect; attempt, successful reconnect, retry. Count 1 never reconnects; an escaping error is never a handled one; after a reconnect the result is the empty string unless retried |
| `BSock.Call` | bareos/bsock/bsock.py:24-28 | `call` starts at count 0 and lets no handled error escape |
| `BSock.CallIsBounded` | bareos/bsock/bsock.py:41-43 | one `call` makes one or two exchanges and at most one reconnect, and makes two exactly when a reconnect succeeded |
| `BSock.CallSucceeds` | bareos/bsock/bsock.py:35-38 | a successful exchange is returned unchanged with no reconnect |
| `BSock.CallPropagates` | bareos/bsock/bsock.py:39 | an error `__call` does not catch escapes after the first exchange, with no reconnect |
| `BSock.CallGivesUp` | bareos/bsock/bsock.py:41-44 | a handled failure and a failed reconnect: `call` returns the empty string and does not retry |
| `BSock.CallRetriesOnce` | bareos/bsock/bsock.py:39-43 | a handled failure and a successful reconnect: the command is sent exactly once more; its answer is returned, a second handled failure yields the empty string, and any other error escapes |
| `BSock.NoRetryAsWritten` | bareos/bsock/bsock.py:39 | since `send` and `recv_msg` raise only RuntimeError and struct.error, neither caught by `__call`, `call` is exactly one exchange and `reconnect` never runs |

## Left out

- Socket I/O: `socket.create_connection`, `settimeout`, `recv` and `sendall`
  are modelled by the event script. Concurrency and real timing are not
  modelled.
- `Connect` models only the stored attributes, the director-name default and
  the three outcomes of `create_connection`. The outcome, and what the
  director sends on a new connection, are arguments.
- HMAC-MD5 (`hmac.new`), `BareosBase64`, `Password.md5`, `random.randint`
  and `time.time` are not part of this model. They are parameters.
- `bareos.bsock.protocolmessages` and `bareos.bsock.constants` are not part of
  this model. The messages, `is_auth_ok` and the status values are
  parameters, and `Constants.get_description` is logging only.
- `reconnect()` is not part of this model. It is an oracle that reports
  success, the new session and script, and its writes.
- `bareos.exceptions` is not part of this model. `SocketEmptyHeader` and
  `ConnectionLostError` are a classifier parameter of `BSock.Call`.
- Logging, including the `string-escape` debug output, is not modelled.
- `disconnect` is an empty placeholder.
- The interactive loop, `send_command` and the `BSock` constructor are left
  out: the constructor passes `name=` to `auth`, which has no such parameter.
- `bareos/bsock/bsockjson.py` is left out. It wraps `json.loads` and console
  I/O and has no protocol logic.
- `send(None)` is not modelled. `len(None)` raises a `TypeError` before the
  socket is used, and every caller in the core passes a string.
- Delivery plans do not cut inside a header. There `recv(4)` returns fewer
  than four bytes, and `recv` raises `struct.error` while `recv_msg` stops
  with it. Both are cases of the models of `recv` and `recv_msg`, not of the
  round-trip lemmas. A payload cut into pieces is covered only by the quirk
  lemmas above, because the code does not read it back correctly.
- A `recv_msg` that keeps timing out for ever is not modelled. The script is
  finite, so the loop ends when the script does.
- Handshake.CramMd5Respond: its contract says only that the one frame sent
  is the base64 of an HMAC under the password for some challenge. Which
  challenge (the third field of the line read) is stated by
  `HandshakeLemmas.RespondScript` for a director that follows the protocol.
- Handshake.Auth: its contract counts the frames and fixes the first one.
  The full order of the four frames is stated by
  `HandshakeLemmas.AuthAnswered`, `AuthAccepted`, `AuthReplyRejected` and
  `AuthResponseRejected`.
- Handshake.AuthAfterHello: its contract counts the frames. Which frames,
  and in what order, is stated by `HandshakeLemmas.AfterHelloOrder`.
- LowLevel.RecvMsgLoop: its contract says only that the result extends the
  message so far. What is appended is stated by the `RecvLemmas` script
  lemmas.

=== FILE: base.dfy ===
/** Shared vocabulary: the byte strings the console protocol exchanges.
    The client is Python 2 code, where a `str` is a sequence of bytes; a
    byte is modelled as a character below 256 so that protocol literals can
    be written as strings. */
module Base {

  /** One octet of a Python 2 `str`. */
  type Byte = c: char | c as int < 256

  /** Bounds of the signed 32-bit integers the frame header carries. */
  const MinInt32: int := -0x8000_0000
  const MaxInt32: int := 0x7FFF_FFFF

  predicate IsInt32(n: int) {
    MinInt32 <= n <= MaxInt32
  }

  datatype Option<+T> = None | Some(value: T)

  /** The byte strings of `parts` one after the other. */
  function Flatten(parts: seq<seq<Byte>>): (s: seq<Byte>)
    ensures |parts| == 0 ==> s == []
  {
    if |parts| == 0 then [] else parts[0] + Flatten(parts[1..])
  }

  lemma AppendAssoc(a: seq<Byte>, b: seq<Byte>, c: seq<Byte>)
    ensures a + b + c == a + (b + c)
  {
  }

  lemma AppendEmpty(a: seq<Byte>)
    ensures [] + a == a && a + [] == a
  {
  }
}

=== FILE: bsock.dfy ===
/** `BSock.call`: send one console command and collect the director's
    answer, reconnecting and retrying once when the exchange fails with one
    of the two exception classes it is prepared for. */
module BSock {
  import opened Base
  import opened Framing
  import opened Transport
  import opened LowLevel

  /** What `reconnect()` did: whether it succeeded, the session and script
      afterwards, and what it wrote.  It is not defined in this model, so
      the caller supplies it. */
  datatype Reconnection = Reconnection(ok: bool, session: Session, input: seq<Event>, writes: seq<seq<Byte>>)

  /** The steps of one `call`: an exchange at a given recursion count, or a
      reconnect with its outcome. */
  datatype CallEvent = Attempt(count: nat) | Reconnected(ok: bool)

  datatype CallOutcome = CallOutcome(
    result: Result<seq<Byte>>,
    session: Session,
    input: seq<Event>,
    writes: seq<seq<Byte>>,
    trace: seq<CallEvent>)

  /** The body of the `try`: `send(command)` and then `recv_msg()`. */
  function Exchange(c: Codes, s: Session, inp: seq<Event>, command: seq<Byte>): (r: Step<seq<Byte>>)
    ensures r.result.Err? ==> r.result.error in {NotConnected, StructError, Hang}
    ensures |r.writes| <= 1
    ensures s.sock.Open? && |command| <= MaxInt32 ==> r.writes == [Frame(command)]
    ensures s.sock.NoSocket? ==> r == Step(Err(NotConnected), s, inp, [])
  {
    var r1 := Send(s, inp, command);
    if r1.result.Err? then Step(Err(r1.result.error), r1.session, r1.input, r1.writes)
    else
      var r2 := RecvMsg(c, r1.session, r1.input);
      Step(r2.result, r2.session, r2.input, r1.writes + r2.writes)
  }

  /** Whether `__call` handles the error: `caught(e)` says that `e` is an
      instance of `SocketEmptyHeader` or `ConnectionLostError`, which are
      declared in a module that is not part of this model.  A call that
      never returns is not an exception and is never handled. */
  predicate Handled(caught: Error -> bool, e: Error) {
    e != Hang && caught(e)
  }

  /** `__call(command, count)`.  The result starts out as the empty string
      and is only replaced by what `recv_msg` returns, so a handled failure
      that is not retried yields the empty string. */
  function CallAt(c: Codes, caught: Error -> bool, reconnect: (Session, seq<Event>) -> Reconnection,
                  s: Session, inp: seq<Event>, command: seq<Byte>, count: nat): (r: CallOutcome)
    requires count <= 1
    ensures |r.trace| > 0 && r.trace[0] == Attempt(count)
    ensures count == 1 ==> r.trace == [Attempt(1)]
    ensures count == 0 ==> r.trace in {[Attempt(0)], [Attempt(0), Reconnected(false)],
                                       [Attempt(0), Reconnected(true), Attempt(1)]}
    ensures r.result.Err? ==> !Handled(caught, r.result.error)
    ensures r.trace[|r.trace| - 1].Reconnected? ==> r.result == Ok([])
    decreases 1 - count
  {
    var r1 := Exchange(c, s, inp, command);
    match r1.result
    case Ok(m) => CallOutcome(Ok(m), r1.session, r1.input, r1.writes, [Attempt(count)])
    case Err(e) =>
      if !Handled(caught, e) then CallOutcome(Err(e), r1.session, r1.input, r1.writes, [Attempt(count)])
      else if count == 0 then
        var rc := reconnect(r1.session, r1.input);
        if rc.ok then
          var r2 := CallAt(c, caught, reconnect, rc.session, rc.input, command, 1);
          assert [Attempt(0), Reconnected(true)] + [Attempt(1)] == [Attempt(0), Reconnected(true), Attempt(1)];
          CallOutcome(r2.result, r2.session, r2.input, r1.writes + rc.writes + r2.writes,
                      [Attempt(0), Reconnected(true)] + r2.trace)
        else
          CallOutcome(Ok([]), rc.session, rc.input, r1.writes + rc.writes, [Attempt(0), Reconnected(false)])
      else CallOutcome(Ok([]), r1.session, r1.input, r1.writes, [Attempt(1)])
  }

  /** `call(command)`. */
  function Call(c: Codes, caught: Error -> bool, reconnect: (Session, seq<Event>) -> Reconnection,
                s: Session, inp: seq<Event>, command: seq<Byte>): (r: CallOutcome)
    ensures |r.trace| > 0 && r.trace[0] == Attempt(0)
    ensures r.result.Err? ==> !Handled(caught, r.result.error)
  {
    CallAt(c, caught, reconnect, s, inp, command, 0)
  }

  /** The number of exchanges in a trace. */
  function Attempts(trace: seq<CallEvent>): nat {
    if |trace| == 0 then 0 else (if trace[0].Attempt? then 1 else 0) + Attempts(trace[1..])
  }

  /** The number of reconnects in a trace. */
  function Reconnects(trace: seq<CallEvent>): nat {
    if |trace| == 0 then 0 else (if trace[0].Reconnected? then 1 else 0) + Reconnects(trace[1..])
  }

  /** One `call` makes at most two exchanges and at most one reconnect, and
      a second exchange happens only after a successful reconnect. */
  lemma CallIsBounded(c: Codes, caught: Error -> bool, reconnect: (Session, seq<Event>) -> Reconnection,
                      s: Session, inp: seq<Event>, command: seq<Byte>)
    ensures var t := Call(c, caught, reconnect, s, inp, command).trace;
            1 <= Attempts(t) <= 2 && Reconnects(t) <= 1
            && (Attempts(t) == 2 <==> Reconnected(true) in t)
  {
    var t := Call(c, caught, reconnect, s, inp, command).trace;
    assert t[0] == Attempt(0);
    if |t| == 1 {
      assert t == [Attempt(0)];
    } else if |t| == 2 {
      assert t == [Attempt(0), Reconnected(false)];
      assert t[1..][1..] == [];
    } else {
      assert t == [Attempt(0), Reconnected(true), Attempt(1)];
      assert t[1..][1..] == [Attempt(1)];
      assert t[1..][1..][1..] == [];
    }
  }

  /** When the exchange succeeds, `call` returns its answer unchanged and
      nothing else happens. */
  lemma CallSucceeds(c: Codes, caught: Error -> bool, reconnect: (Session, seq<Event>) -> Reconnection,
                     s: Session, inp: seq<Event>, command: seq<Byte>)
    requires Exchange(c, s, inp, command).result.Ok?
    ensures var r1 := Exchange(c, s, inp, command);
            Call(c, caught, reconnect, s, inp, command) == CallOutcome(r1.result, r1.session, r1.input, r1.writes, [Attempt(0)])
  {
  }

  /** An error `__call` does not handle escapes from `call` after the first
      exchange, without a reconnect. */
  lemma CallPropagates(c: Codes, caught: Error -> bool, reconnect: (Session, seq<Event>) -> Reconnection,
                       s: Session, inp: seq<Event>, command: seq<Byte>)
    requires Exchange(c, s, inp, command).result.Err?
    requires !Handled(caught, Exchange(c, s, inp, command).result.error)
    ensures var r1 := Exchange(c, s, inp, command);
            Call(c, caught, reconnect, s, inp, command) == CallOutcome(r1.result, r1.session, r1.input, r1.writes, [Attempt(0)])
  {
  }

  /** A handled failure followed by a failed reconnect: `call` returns the
      empty string and does not retry. */
  lemma CallGivesUp(c: Codes, caught: Error -> bool, reconnect: (Session, seq<Event>) -> Reconnection,
                    s: Session, inp: seq<Event>, command: seq<Byte>)
    requires Exchange(c, s, inp, command).result.Err?
    requires Handled(caught, Exchange(c, s, inp, command).result.error)
    requires !reconnect(Exchange(c, s, inp, command).session, Exchange(c, s, inp, command).input).ok
    ensures var r1 := Exchange(c, s, inp, command);
            var rc := reconnect(r1.session, r1.input);
            Call(c, caught, reconnect, s, inp, command)
            == CallOutcome(Ok([]), rc.session, rc.input, r1.writes + rc.writes, [Attempt(0), Reconnected(false)])
  {
  }

  /** A handled failure followed by a successful reconnect: the command is
      sent once more on the new connection.  Its answer is returned if it
      succeeds; a second handled failure yields the empty string; any other
      error escapes. */
  lemma CallRetriesOnce(c: Codes, caught: Error -> bool, reconnect: (Session, seq<Event>) -> Reconnection,
                        s: Session, inp: seq<Event>, command: seq<Byte>)
    requires Exchange(c, s, inp, command).result.Err?
    requires Handled(caught, Exchange(c, s, inp, command).result.error)
    requires reconnect(Exchange(c, s, inp, command).session, Exchange(c, s, inp, command).input).ok
    ensures var r1 := Exchange(c, s, inp, command);
            var rc := reconnect(r1.session, r1.input);
            var r2 := Exchange(c, rc.session, rc.input, command);
            Call(c, caught, reconnect, s, inp, command)
            == CallOutcome(if r2.result.Err? && Handled(caught, r2.result.error) then Ok([]) else r2.result,
                           r2.session, r2.input, r1.writes + rc.writes + r2.writes,
                           [Attempt(0), Reconnected(true), Attempt(1)])
  {
    var r1 := Exchange(c, s, inp, command);
    var rc := reconnect(r1.session, r1.input);
    var r2 := CallAt(c, caught, reconnect, rc.session, rc.input, command, 1);
    assert [Attempt(0), Reconnected(true)] + [Attempt(1)] == [Attempt(0), Reconnected(true), Attempt(1)];
  }

  /** As the core is written, `send` and `recv_msg` raise only
      `RuntimeError` and `struct.error`, neither of which is one of the two
      classes `__call` handles: `call` is then exactly one exchange, and
      the reconnect never runs. */
  lemma NoRetryAsWritten(c: Codes, caught: Error -> bool, reconnect: (Session, seq<Event>) -> Reconnection,
                         s: Session, inp: seq<Event>, command: seq<Byte>)
    requires !caught(NotConnected) && !caught(StructError)
    ensures var r1 := Exchange(c, s, inp, command);
            Call(c, caught, reconnect, s, inp, command) == CallOutcome(r1.result, r1.session, r1.input, r1.writes, [Attempt(0)])
  {
  }
}

=== FILE: delivery.dfy ===
/** How the bytes a director sends are cut into deliveries.  A `recv` that
    asks for a header or a payload gets all of it exactly when no delivery
    ends inside that header or payload, so a plan may cut the stream only
    between units, or between a frame's header and its payload. */
module Delivery {
  import opened Base
  import opened Framing
  import opened Transport

  /** One unit of the stream, whether its header arrives in a delivery of
      its own (meaningful for payload frames only), and whether a delivery
      ends right after it. */
  datatype Piece = Piece(unit: Unit, splitHeader: bool, breakAfter: bool)

  /** The units a plan delivers, in order. */
  function Units(ps: seq<Piece>): (us: seq<Unit>)
    ensures |us| == |ps|
    ensures forall i :: 0 <= i < |ps| ==> us[i] == ps[i].unit
  {
    if |ps| == 0 then [] else [ps[0].unit] + Units(ps[1..])
  }

  lemma UnitsCons(ps: seq<Piece>)
    requires |ps| > 0
    ensures Units(ps)[0] == ps[0].unit && Units(ps)[1..] == Units(ps[1..])
  {
  }

  predicate Encodable(ps: seq<Piece>) {
    forall i :: 0 <= i < |ps| ==> WellFormed(ps[i].unit)
  }

  /** The deliveries that carry the units of `ps` and then `tail`, which
      continues the last delivery (and may be empty). */
  function Chunks(ps: seq<Piece>, tail: seq<Byte>): (cs: seq<seq<Byte>>)
    requires Encodable(ps)
    ensures |cs| > 0
    ensures |ps| == 0 ==> cs == [tail]
    ensures |ps| > 0 ==> |cs[0]| >= 4
    decreases |ps|
  {
    if |ps| == 0 then [tail]
    else
      var u := ps[0].unit;
      var cs := Chunks(ps[1..], tail);
      if u.Chunk? && ps[0].splitHeader then
        if ps[0].breakAfter then [Pack(|u.payload|), u.payload] + cs
        else [Pack(|u.payload|), u.payload + cs[0]] + cs[1..]
      else if ps[0].breakAfter then [Encode(u)] + cs
      else [Encode(u) + cs[0]] + cs[1..]
  }

  /** The script in which each of `cs` is one delivery, followed by `rest`;
      an empty delivery is not a delivery at all. */
  function Deliver(cs: seq<seq<Byte>>, rest: seq<Event>): (inp: seq<Event>)
    ensures |cs| > 0 && cs[0] != [] ==> |inp| > 0 && inp[0] == Data(cs[0]) && Writable(inp) && !Closed(inp)
  {
    if |cs| == 0 then rest else Push(cs[0], Deliver(cs[1..], rest))
  }

  lemma DeliverOne(a: seq<Byte>, cs: seq<seq<Byte>>, rest: seq<Event>)
    ensures Deliver([a] + cs, rest) == Push(a, Deliver(cs, rest))
  {
    assert ([a] + cs)[1..] == cs;
  }

  lemma DeliverTwo(a: seq<Byte>, b: seq<Byte>, cs: seq<seq<Byte>>, rest: seq<Event>)
    ensures Deliver([a, b] + cs, rest) == Push(a, Push(b, Deliver(cs, rest)))
  {
    assert [a, b] + cs == [a] + ([b] + cs);
    DeliverOne(a, [b] + cs, rest);
    DeliverOne(b, cs, rest);
  }

  /** Nothing is lost or reordered: the deliveries of a plan, one after the
      other, are exactly the encoded units followed by the tail. */
  lemma {:induction false} ChunksCarryStream(ps: seq<Piece>, tail: seq<Byte>)
    requires Encodable(ps)
    ensures Flatten(Chunks(ps, tail)) == EncodeAll(Units(ps)) + tail
    decreases |ps|
  {
    if |ps| == 0 {
      assert Flatten([tail]) == tail + Flatten([]);
      AppendEmpty(tail);
    } else {
      var u := ps[0].unit;
      var cs := Chunks(ps[1..], tail);
      ChunksCarryStream(ps[1..], tail);
      UnitsCons(ps);
      assert EncodeAll(Units(ps)) == Encode(u) + EncodeAll(Units(ps[1..]));
      AppendAssoc(Encode(u), EncodeAll(Units(ps[1..])), tail);
      FirstChunks(ps, tail);
    }
  }

  /** How the first unit of a plan sits in its deliveries. */
  lemma FirstChunks(ps: seq<Piece>, tail: seq<Byte>)
    requires Encodable(ps) && |ps| > 0
    ensures Flatten(Chunks(ps, tail)) == Encode(ps[0].unit) + Flatten(Chunks(ps[1..], tail))
  {
    var u := ps[0].unit;
    var cs := Chunks(ps[1..], tail);
    if u.Chunk? && ps[0].splitHeader {
      assert Encode(u) == Pack(|u.payload|) + u.payload;
      if ps[0].breakAfter {
        FlattenTwo(Pack(|u.payload|), u.payload, cs);
      } else {
        FlattenJoined(Pack(|u.payload|) + u.payload, cs);
        FlattenTwo(Pack(|u.payload|), u.payload + cs[0], cs[1..]);
        AppendAssoc(Pack(|u.payload|), u.payload, cs[0]);
      }
    } else if ps[0].breakAfter {
      FlattenOne(Encode(u), cs);
    } else {
      FlattenJoined(Encode(u), cs);
    }
  }

  lemma FlattenOne(a: seq<Byte>, cs: seq<seq<Byte>>)
    ensures Flatten([a] + cs) == a + Flatten(cs)
  {
    assert ([a] + cs)[1..] == cs;
  }

  lemma FlattenTwo(a: seq<Byte>, b: seq<Byte>, cs: seq<seq<Byte>>)
    ensures Flatten([a, b] + cs) == a + b + Flatten(cs)
  {
    assert [a, b] + cs == [a] + ([b] + cs);
    FlattenOne(a, [b] + cs);
    FlattenOne(b, cs);
    AppendAssoc(a, b, Flatten(cs));
  }

  /** Bytes joined onto the front of the first delivery. */
  lemma FlattenJoined(a: seq<Byte>, cs: seq<seq<Byte>>)
    requires |cs| > 0
    ensures Flatten([a + cs[0]] + cs[1..]) == a + Flatten(cs)
  {
    FlattenOne(a + cs[0], cs[1..]);
    FlattenOne(cs[0], cs[1..]);
    assert [cs[0]] + cs[1..] == cs;
    AppendAssoc(a, cs[0], Flatten(cs[1..]));
  }

  /** A plan that never cuts the stream is a single delivery of all of it. */
  lemma {:induction false} WholeStream(ps: seq<Piece>, tail: seq<Byte>)
    requires Encodable(ps)
    requires forall i :: 0 <= i < |ps| ==> !ps[i].splitHeader && !ps[i].breakAfter
    ensures Chunks(ps, tail) == [EncodeAll(Units(ps)) + tail]
    decreases |ps|
  {
    if |ps| == 0 {
      assert [] + tail == tail;
    } else {
      var u := ps[0].unit;
      WholeStream(ps[1..], tail);
      UnitsCons(ps);
      assert EncodeAll(Units(ps)) == Encode(u) + EncodeAll(Units(ps[1..]));
      AppendAssoc(Encode(u), EncodeAll(Units(ps[1..])), tail);
    }
  }

  /** The bytes that follow the first unit of a plan inside its delivery. */
  function Lead(ps: seq<Piece>, tail: seq<Byte>): seq<Byte>
    requires Encodable(ps) && |ps| > 0
  {
    if ps[0].breakAfter then [] else Chunks(ps[1..], tail)[0]
  }

  /** The deliveries after the one in which the first unit of a plan ends. */
  function Behind(ps: seq<Piece>, tail: seq<Byte>, rest: seq<Event>): seq<Event>
    requires Encodable(ps) && |ps| > 0
  {
    var cs := Chunks(ps[1..], tail);
    if ps[0].breakAfter then Deliver(cs, rest) else Deliver(cs[1..], rest)
  }

  /** The first unit of a plan arrives either whole at the head of a
      delivery, or (a payload frame only) as a header delivery followed by
      a delivery that starts with the payload; what is left once it has
      been read is the script of the remaining pieces. */
  lemma FirstPiece(ps: seq<Piece>, tail: seq<Byte>, rest: seq<Event>)
    requires Encodable(ps) && |ps| > 0
    ensures var u := ps[0].unit;
            var x, r := Lead(ps, tail), Behind(ps, tail, rest);
            Deliver(Chunks(ps, tail), rest)
            == if u.Chunk? && ps[0].splitHeader then Push(Pack(|u.payload|), Push(u.payload + x, r))
               else Push(Encode(u) + x, r)
    ensures Push(Lead(ps, tail), Behind(ps, tail, rest)) == Deliver(Chunks(ps[1..], tail), rest)
  {
    var u := ps[0].unit;
    var cs := Chunks(ps[1..], tail);
    if ps[0].breakAfter {
      if u.Chunk? && ps[0].splitHeader {
        DeliverTwo(Pack(|u.payload|), u.payload, cs, rest);
        assert u.payload + [] == u.payload;
      } else {
        DeliverOne(Encode(u), cs, rest);
        assert Encode(u) + [] == Encode(u);
      }
    } else {
      if u.Chunk? && ps[0].splitHeader {
        DeliverTwo(Pack(|u.payload|), u.payload + cs[0], cs[1..], rest);
      } else {
        DeliverOne(Encode(u) + cs[0], cs[1..], rest);
      }
      DeliverOne(cs[0], cs[1..], rest);
      assert [cs[0]] + cs[1..] == cs;
    }
  }

  /** A plan with a unit in it starts with a delivery, so the next
      `sendall` meets no error and the next `recv` finds bytes. */
  lemma PlanWritable(ps: seq<Piece>, tail: seq<Byte>, rest: seq<Event>)
    requires Encodable(ps) && |ps| > 0
    ensures Writable(Deliver(Chunks(ps, tail), rest)) && !Closed(Deliver(Chunks(ps, tail), rest))
  {
    assert Chunks(ps, tail)[0] != [];
  }

  /** One frame as `recv` reads it: delivered whole with `more` after it in
      the same delivery, or with its header in a delivery of its own. */
  function Sent(p: seq<Byte>, split: bool, more: seq<Byte>, rest: seq<Event>): (inp: seq<Event>)
    requires |p| <= MaxInt32
    ensures Writable(inp) && !Closed(inp)
  {
    if split && |p| > 0 then Push(Pack(|p|), Push(p + more, rest)) else Push(Frame(p) + more, rest)
  }
}

=== FILE: framing.dfy ===
/** The wire format of the console protocol: every frame starts with a
    4-byte big-endian signed 32-bit length (`struct` format `!i`), followed
    by that many payload bytes when the length is positive.  A length of
    zero or below carries no payload and is read as a status code. */
module Framing {
  import opened Base

  /** The byte whose value is `x`. */
  function ByteOf(x: int): (b: Byte)
    requires 0 <= x < 256
    ensures b as int == x
  {
    x as char
  }

  /** `struct.pack("!i", n)`: two's complement, most significant byte first. */
  function Pack(n: int): (h: seq<Byte>)
    requires IsInt32(n)
    ensures |h| == 4
    ensures (h[0] as int >= 0x80) == (n < 0)
  {
    var u := if n < 0 then n + 0x1_0000_0000 else n;
    [ByteOf(u / 0x100_0000), ByteOf(u / 0x1_0000 % 0x100),
     ByteOf(u / 0x100 % 0x100), ByteOf(u % 0x100)]
  }

  /** The unsigned value of four bytes read most significant first. */
  function Word(h: seq<Byte>): (v: int)
    requires |h| == 4
    ensures 0 <= v < 0x1_0000_0000
  {
    h[0] as int * 0x100_0000 + h[1] as int * 0x1_0000 + h[2] as int * 0x100 + h[3] as int
  }

  /** `struct.unpack("!i", h)[0]` for a header of exactly four bytes. */
  function Unpack(h: seq<Byte>): (n: int)
    requires |h| == 4
    ensures IsInt32(n)
    ensures (n < 0) == (h[0] as int >= 0x80)
  {
    var v := Word(h);
    if v >= 0x8000_0000 then v - 0x1_0000_0000 else v
  }

  /** Splitting an unsigned 32-bit value into bytes and joining them again
      gives the value back. */
  lemma WordOfDigits(u: int)
    requires 0 <= u < 0x1_0000_0000
    ensures u / 0x100_0000 < 0x100
    ensures u == u / 0x100_0000 * 0x100_0000 + u / 0x1_0000 % 0x100 * 0x1_0000
               + u / 0x100 % 0x100 * 0x100 + u % 0x100
  {
    var a, b, c, d := u / 0x100_0000, u / 0x1_0000 % 0x100, u / 0x100 % 0x100, u % 0x100;
    assert u / 0x100 == u / 0x100 / 0x100 * 0x100 + c;
    assert u / 0x1_0000 == u / 0x100 / 0x100;
    assert u / 0x1_0000 == u / 0x1_0000 / 0x100 * 0x100 + b;
    assert u / 0x100_0000 == u / 0x1_0000 / 0x100;
  }

  /** Decoding the header `send` writes gives back the length it encoded:
      `unpack(pack(n)) == n` for every signed 32-bit `n`. */
  lemma {:induction false} UnpackPack(n: int)
    requires IsInt32(n)
    ensures Unpack(Pack(n)) == n
  {
    var u := if n < 0 then n + 0x1_0000_0000 else n;
    WordOfDigits(u);
    assert Word(Pack(n)) == u;
  }

  /** Every 4-byte header is the encoding of the length it decodes to, so
      `Pack` and `Unpack` are mutually inverse on their whole domains. */
  lemma {:induction false} PackUnpack(h: seq<Byte>)
    requires |h| == 4
    ensures Pack(Unpack(h)) == h
  {
    var u := Word(h);
    var a, b, c, d := h[0] as int, h[1] as int, h[2] as int, h[3] as int;
    assert u % 0x100 == d;
    assert u / 0x100 == a * 0x1_0000 + b * 0x100 + c;
    assert u / 0x100 % 0x100 == c;
    assert u / 0x1_0000 == a * 0x100 + b;
    assert u / 0x1_0000 % 0x100 == b;
    assert u / 0x100_0000 == a;
    var p := Pack(Unpack(h));
    assert p[0] == h[0] && p[1] == h[1] && p[2] == h[2] && p[3] == h[3];
  }

  /** What `send` writes for a message: the length header, then the bytes. */
  function Frame(msg: seq<Byte>): (f: seq<Byte>)
    requires |msg| <= MaxInt32
    ensures |f| == 4 + |msg|
    ensures Unpack(f[..4]) == |msg| && f[4..] == msg
  {
    UnpackPack(|msg|);
    assert (Pack(|msg|) + msg)[..4] == Pack(|msg|);
    Pack(|msg|) + msg
  }

  /** `w` is the frame `send` writes for `msg`. */
  predicate IsFrameOf(w: seq<Byte>, msg: seq<Byte>) {
    |msg| <= MaxInt32 && w == Frame(msg)
  }

  /** One unit on the wire as the director sends it: a payload fragment or a
      status signal (a length of zero or below). */
  datatype Unit = Chunk(payload: seq<Byte>) | Signal(code: int)

  /** A unit whose encoding decodes back to it: payloads non-empty and short
      enough for the header, signal codes non-positive 32-bit values. */
  predicate WellFormed(u: Unit) {
    match u
    case Chunk(p) => 0 < |p| <= MaxInt32
    case Signal(c) => MinInt32 <= c <= 0
  }

  function Encode(u: Unit): (e: seq<Byte>)
    requires WellFormed(u)
    ensures |e| >= 4
  {
    match u
    case Chunk(p) => Frame(p)
    case Signal(c) => Pack(c)
  }

  function EncodeAll(us: seq<Unit>): (e: seq<Byte>)
    requires forall i :: 0 <= i < |us| ==> WellFormed(us[i])
  {
    if |us| == 0 then [] else Encode(us[0]) + EncodeAll(us[1..])
  }

  /** The payload bytes a unit carries. */
  function Carried(u: Unit): seq<Byte> {
    if u.Chunk? then u.payload else []
  }

  /** The payload bytes a sequence of units carries, in order. */
  function Payloads(us: seq<Unit>): seq<Byte> {
    if |us| == 0 then [] else Carried(us[0]) + Payloads(us[1..])
  }

  /** The status the last signal in `us` sets, or `prior` if there is none. */
  function LastSignal(us: seq<Unit>, prior: Option<int>): Option<int> {
    if |us| == 0 then prior
    else LastSignal(us[1..], if us[0].Signal? then Some(us[0].code) else prior)
  }
}

=== FILE: handshake.dfy ===
/** The mutual CRAM-MD5 handshake (after section 2 of RFC 2195, with the
    HMAC-MD5 of section 2 of RFC 2104): the director challenges the client
    first (`_cram_md5_respond`), then the client challenges the director
    (`_cram_md5_challenge`).  HMAC-MD5, the two base64 dialects and the
    fixed protocol messages are parameters. */
module Handshake {
  import opened Base
  import opened Framing
  import opened Transport
  import opened Text
  import opened LowLevel

  /** The collaborators the handshake calls but does not define. */
  datatype Protocol = Protocol(
    hello: seq<Byte> -> seq<Byte>,                  // ProtocolMessages.hello(clientname)
    authOk: seq<Byte>,                              // ProtocolMessages.auth_ok()
    authFailed: seq<Byte>,                          // ProtocolMessages.auth_failed()
    isAuthOk: seq<Byte> -> bool,                    // ProtocolMessages.is_auth_ok(msg)
    hmacMd5: (seq<Byte>, seq<Byte>) -> seq<Byte>,   // hmac.new(key) updated with msg, digest()
    base64: (seq<Byte>, bool) -> seq<Byte>,         // BareosBase64().string_to_base64(d, compatible)
    base64Default: seq<Byte> -> seq<Byte>)          // string_to_base64(d) with its default dialect

  /** The `password` argument of `auth`: a `Password` object, of which only
      its MD5 digest is used, or any other value. */
  datatype PasswordArg = Password(md5: seq<Byte>) | OtherValue

  /** What `_cram_md5_respond` takes from the director's challenge line. */
  datatype Challenge = Challenge(chal: seq<Byte>, ssl: nat)

  /** The `(ssl, compatible, result)` tuple `_cram_md5_respond` returns. */
  datatype Reply = Reply(ssl: nat, compatible: bool, result: bool)

  /** The challenge is the third space-separated field; the ssl flag is the
      character at index 4 of the fourth field, which must be a digit.  A
      missing field or character is an IndexError, a non-digit a
      ValueError. */
  function ParseChallenge(line: seq<Byte>): (r: Result<Challenge>)
    ensures r.Ok? ==> r.value.ssl < 10 && Space !in r.value.chal
    ensures r.Err? ==> r.error == ParseError
  {
    var f := Split(line, Space);
    if |f| < 4 || |f[3]| < 5 || !IsDigit(f[3][4]) then Err(ParseError)
    else Ok(Challenge(f[2], f[3][4] as int - '0' as int))
  }

  /** `"<%u.%u@%s>" % (rand, int(time.time()), clientname)`. */
  function ChallengeString(rand: nat, now: nat, clientname: seq<Byte>): (c: seq<Byte>)
    ensures |c| >= |Decimal(rand)| + |clientname| + 2 && c[0] == '<' && c[|c| - 1] == '>'
    ensures c[1..1 + |Decimal(rand)|] == Decimal(rand)
    ensures c[|c| - 1 - |clientname|..|c| - 1] == clientname
    ensures |c| == |Decimal(rand)| + |Decimal(now)| + |clientname| + 4
    ensures var k := 1 + |Decimal(rand)|;
            c[k] == '.' && c[k + 1..k + 1 + |Decimal(now)|] == Decimal(now) && c[k + 1 + |Decimal(now)|] == '@'
  {
    "<" + Decimal(rand) + "." + Decimal(now) + "@" + clientname + ">"
  }

  /** `'auth cram-md5 %s ssl=%d\n' % (chal, tls)`. */
  function ChallengeLine(chal: seq<Byte>, tls: nat): (l: seq<Byte>)
    ensures |l| > 14 + |chal| && l[..14] == "auth cram-md5 " && l[14..14 + |chal|] == chal
    ensures l[|l| - 1] == '\n'
  {
    "auth cram-md5 " + chal + " ssl=" + Decimal(tls) + "\n"
  }

  /** The director's reply is accepted when, stripped of NUL bytes, it is
      the compatible or the non-compatible base64 of HMAC(password, chal). */
  predicate Accepts(p: Protocol, password: seq<Byte>, chal: seq<Byte>, reply: seq<Byte>) {
    var digest := p.hmacMd5(password, chal);
    var got := StripNul(reply);
    got == p.base64(digest, true) || got == p.base64(digest, false)
  }

  /** `_cram_md5_respond(password)`: answer the director's challenge. */
  function CramMd5Respond(p: Protocol, s: Session, inp: seq<Event>, password: seq<Byte>): (r: Step<Reply>)
    ensures r.session == s || r.session == HandleSocketError(s)
    ensures |r.writes| <= 1
    ensures |r.writes| == 1 ==> exists chal :: IsFrameOf(r.writes[0], p.base64Default(p.hmacMd5(password, chal)))
    ensures r.result.Ok? ==> r.result.value.compatible
    ensures r.result.Ok? && r.result.value.result ==> |r.writes| == 1
    ensures r.result.Ok? && r.writes == [] ==> r.result.value == Reply(0, true, false)
    ensures s.sock.NoSocket? ==> r == Step(Ok(Reply(0, true, false)), s, inp, [])
    ensures s.sock.Open? && Closed(inp) ==> r == Step(Ok(Reply(0, true, false)), s, inp, [])
    ensures r.result.Err? ==> !r.result.error.AuthError?
  {
    var r1 := Recv(s, inp);
    match r1.result
    case Err(e) =>
      if IsRuntimeError(e) then Step(Ok(Reply(0, true, false)), r1.session, r1.input, [])
      else Step(Err(e), r1.session, r1.input, [])
    case Ok(line) =>
      match ParseChallenge(line)
      case Err(e) => Step(Err(e), r1.session, r1.input, [])
      case Ok(ch) =>
        var r2 := Send(r1.session, r1.input, p.base64Default(p.hmacMd5(password, ch.chal)));
        if r2.result.Err? then Step(Err(r2.result.error), r2.session, r2.input, r2.writes)
        else
          var r3 := Recv(r2.session, r2.input);
          match r3.result
          case Err(e) => Step(Err(e), r3.session, r3.input, r2.writes)
          case Ok(ack) => Step(Ok(Reply(ch.ssl, true, p.isAuthOk(ack))), r3.session, r3.input, r2.writes)
  }

  /** `_cram_md5_challenge(clientname, password, tls)`: challenge the
      director with a fresh nonce built from `rand` and `now` (the values of
      `random.randint` and `int(time.time())`), check its reply, and
      acknowledge it either way. */
  function CramMd5Challenge(p: Protocol, s: Session, inp: seq<Event>, clientname: seq<Byte>,
                            password: seq<Byte>, tls: nat, rand: nat, now: nat): (r: Step<bool>)
    requires 1000000000 <= rand <= 9999999999
    ensures |r.writes| <= 2
    ensures |r.writes| > 0 ==> IsFrameOf(r.writes[0], ChallengeLine(ChallengeString(rand, now, clientname), tls))
    ensures r.result.Ok? ==> |r.writes| >= 1
    ensures r.result.Ok? ==> |r.writes| == 2
    ensures r.result.Ok? && |r.writes| == 2 ==>
              IsFrameOf(r.writes[1], if r.result.value then p.authOk else p.authFailed)
    ensures r.result.Err? ==> |r.writes| <= 1
    ensures s.sock.NoSocket? ==> r == Step(Err(NotConnected), s, inp, [])
    ensures r.result.Err? ==> !r.result.error.AuthError?
  {
    var chal := ChallengeString(rand, now, clientname);
    var r1 := Send(s, inp, ChallengeLine(chal, tls));
    if r1.result.Err? then Step(Err(r1.result.error), r1.session, r1.input, r1.writes)
    else
      var r2 := CheckReply(p, r1.session, r1.input, password, chal);
      Step(r2.result, r2.session, r2.input, r1.writes + r2.writes)
  }

  /** The part of `_cram_md5_challenge` after the challenge line is sent:
      read the reply and send one acknowledgement that matches the
      verdict. */
  function CheckReply(p: Protocol, s: Session, inp: seq<Event>, password: seq<Byte>,
                      chal: seq<Byte>): (r: Step<bool>)
    ensures |r.writes| <= 1
    ensures r.result.Ok? ==> |r.writes| == 1
    ensures r.result.Ok? && |r.writes| == 1 ==>
              IsFrameOf(r.writes[0], if r.result.value then p.authOk else p.authFailed)
    ensures r.result.Err? ==> r.writes == []
    ensures s.sock.NoSocket? ==> r == Step(Err(NotConnected), s, inp, [])
    ensures r.result.Err? ==> !r.result.error.AuthError?
  {
    var r2 := Recv(s, inp);
    match r2.result
    case Err(e) => Step(Err(e), r2.session, r2.input, [])
    case Ok(reply) =>
      var ok := Accepts(p, password, chal, reply);
      var r3 := Send(r2.session, r2.input, if ok then p.authOk else p.authFailed);
      if r3.result.Err? then Step(Err(r3.result.error), r3.session, r3.input, [])
      else Step(Ok(ok), r3.session, r3.input, r3.writes)
  }

  /** `auth(password, clientname)`: hello, then answer the director's
      challenge, then challenge the director (with `tls_local_need=0`). */
  function Auth(p: Protocol, s: Session, inp: seq<Event>, password: PasswordArg, clientname: seq<Byte>,
                rand: nat, now: nat): (r: Step<bool>)
    requires 1000000000 <= rand <= 9999999999
    ensures password.OtherValue? ==> r == Step(Err(AuthError(NotAPassword)), s, inp, [])
    ensures r.result.Ok? ==> r.result.value && |r.writes| >= 3
    ensures r.result.Ok? || r.result == Err(AuthError(FailedChallenge)) ==> |r.writes| == 4
    ensures |r.writes| > 0 ==> IsFrameOf(r.writes[0], p.hello(clientname))
    ensures r.result == Err(AuthError(FailedRespond)) ==> |r.writes| <= 2
    ensures |r.writes| <= 4
  {
    if password.OtherValue? then Step(Err(AuthError(NotAPassword)), s, inp, [])
    else
      var r1 := Send(s, inp, p.hello(clientname));
      if r1.result.Err? then Step(Err(r1.result.error), r1.session, r1.input, r1.writes)
      else
        var r2 := AuthAfterHello(p, r1.session, r1.input, password.md5, clientname, rand, now);
        Step(r2.result, r2.session, r2.input, r1.writes + r2.writes)
  }

  /** The part of `auth` after the hello: `_cram_md5_respond`, and if the
      director accepted the response, the client's own challenge. */
  function AuthAfterHello(p: Protocol, s: Session, inp: seq<Event>, md5: seq<Byte>, clientname: seq<Byte>,
                          rand: nat, now: nat): (r: Step<bool>)
    requires 1000000000 <= rand <= 9999999999
    ensures r.result.Ok? ==> r.result.value && |r.writes| >= 2
    ensures r.result.Ok? || r.result == Err(AuthError(FailedChallenge)) ==> |r.writes| == 3
    ensures r.result == Err(AuthError(FailedRespond)) ==> |r.writes| <= 1
    ensures s.sock.NoSocket? ==> r.result == Err(AuthError(FailedRespond)) && r.writes == []
    ensures |r.writes| <= 3
  {
    var r2 := CramMd5Respond(p, s, inp, md5);
    match r2.result
    case Err(e) => Step(Err(e), r2.session, r2.input, r2.writes)
    case Ok(reply) =>
      if !reply.result then Step(Err(AuthError(FailedRespond)), r2.session, r2.input, r2.writes)
      else
        var r3 := CramMd5Challenge(p, r2.session, r2.input, clientname, md5, 0, rand, now);
        var w := r2.writes + r3.writes;
        match r3.result
        case Err(e) => Step(Err(e), r3.session, r3.input, w)
        case Ok(accepted) =>
          if !accepted then Step(Err(AuthError(FailedChallenge)), r3.session, r3.input, w)
          else Step(Ok(true), r3.session, r3.input, w)
  }
}

=== FILE: handshake_lemmas.dfy ===
/** The handshake against a director that follows the protocol: what each
    direction sends, reads and decides, and how the two line formats fit
    together. */
module HandshakeLemmas {
  import opened Base
  import opened Framing
  import opened Transport
  import opened Delivery
  import opened Text
  import opened LowLevel
  import opened RecvLemmas
  import opened Handshake

  /** The nonce drawn by `random.randint(1000000000, 9999999999)` always
      renders as exactly ten digits. */
  lemma ChallengeNonceDigits(rand: nat)
    requires 1000000000 <= rand <= 9999999999
    ensures |Decimal(rand)| == 10
  {
    assert Pow10(10) == 10000000000;
    DecimalLength(rand, 9);
    DecimalLength(rand, 8);
  }

  lemma DecimalHasNoSpace(n: nat)
    ensures Space !in Decimal(n)
  {
    var d := Decimal(n);
    assert forall i :: 0 <= i < |d| ==> d[i] != Space;
  }

  lemma ChallengeStringHasNoSpace(rand: nat, now: nat, clientname: seq<Byte>)
    requires Space !in clientname
    ensures Space !in ChallengeString(rand, now, clientname)
  {
    DecimalHasNoSpace(rand);
    DecimalHasNoSpace(now);
  }

  /** What parsing takes from a line: the line is made of at least four
      space-free fields, the challenge is the third, and the ssl flag is the
      digit at index 4 of the fourth. */
  lemma ParseChallengeFields(line: seq<Byte>)
    ensures var r := ParseChallenge(line);
            r.Ok? ==> exists f: seq<seq<Byte>> ::
              |f| >= 4 && Join(f, Space) == line && (forall i :: 0 <= i < |f| ==> Space !in f[i])
              && f[2] == r.value.chal && |f[3]| >= 5 && f[3][4] == DigitChar(r.value.ssl)
  {
    var f := Split(line, Space);
    var r := ParseChallenge(line);
    if r.Ok? {
      JoinSplit(line, Space);
      assert r.value.chal == f[2] && r.value.ssl == f[3][4] as int - '0' as int;
      assert DigitChar(r.value.ssl) == f[3][4];
      assert |f| >= 4 && Join(f, Space) == line && (forall i :: 0 <= i < |f| ==> Space !in f[i])
             && f[2] == r.value.chal && |f[3]| >= 5 && f[3][4] == DigitChar(r.value.ssl);
    }
  }

  /** A line of four space-free fields splits into exactly those fields. */
  lemma SplitFour(a: seq<Byte>, b: seq<Byte>, c: seq<Byte>, d: seq<Byte>)
    requires Space !in a && Space !in b && Space !in c && Space !in d
    ensures Split(a + [Space] + b + [Space] + c + [Space] + d, Space) == [a, b, c, d]
  {
    var cd := c + [Space] + d;
    var bcd := b + [Space] + cd;
    Regroup(a, b, c, d);
    assert Split(d, Space) == [d];
    SplitCons(c, d, Space);
    SplitCons(b, cd, Space);
    SplitCons(a, bcd, Space);
    FieldsInOrder(a, b, c, d);
  }

  lemma Regroup(a: seq<Byte>, b: seq<Byte>, c: seq<Byte>, d: seq<Byte>)
    ensures a + [Space] + b + [Space] + c + [Space] + d == a + [Space] + (b + [Space] + (c + [Space] + d))
  {
  }

  lemma FieldsInOrder(a: seq<Byte>, b: seq<Byte>, c: seq<Byte>, d: seq<Byte>)
    ensures [a] + ([b] + ([c] + [d])) == [a, b, c, d]
  {
  }

  /** What `_cram_md5_respond` takes from a line of four known fields. */
  lemma ParseFour(a: seq<Byte>, b: seq<Byte>, c: seq<Byte>, d: seq<Byte>)
    requires Space !in a && Space !in b && Space !in c && Space !in d
    requires |d| >= 5 && IsDigit(d[4])
    ensures ParseChallenge(a + [Space] + b + [Space] + c + [Space] + d)
            == Ok(Challenge(c, d[4] as int - '0' as int))
  {
    SplitFour(a, b, c, d);
  }

  /** Parsing a line of any number of space-free fields: it fails unless
      there are at least four and the fourth has a digit at index 4, and
      otherwise takes the third field and that digit, whatever follows. */
  lemma ParseFields(f: seq<seq<Byte>>)
    requires |f| > 0 && forall i :: 0 <= i < |f| ==> Space !in f[i]
    ensures |f| >= 4 && |f[3]| >= 5 && IsDigit(f[3][4])
            ==> ParseChallenge(Join(f, Space)) == Ok(Challenge(f[2], f[3][4] as int - '0' as int))
    ensures !(|f| >= 4 && |f[3]| >= 5 && IsDigit(f[3][4])) ==> ParseChallenge(Join(f, Space)) == Err(ParseError)
  {
    SplitJoin(f, Space);
    ParseSplit(Join(f, Space), f);
  }

  lemma ParseSplit(line: seq<Byte>, f: seq<seq<Byte>>)
    requires Split(line, Space) == f
    ensures |f| >= 4 && |f[3]| >= 5 && IsDigit(f[3][4])
            ==> ParseChallenge(line) == Ok(Challenge(f[2], f[3][4] as int - '0' as int))
    ensures !(|f| >= 4 && |f[3]| >= 5 && IsDigit(f[3][4])) ==> ParseChallenge(line) == Err(ParseError)
  {
  }

  /** The challenge determines the nonce and the time it was built from:
      two challenges for the same client name are equal only when both
      the nonce and the time are. */
  lemma ChallengeStringInjective(rand1: nat, now1: nat, rand2: nat, now2: nat, clientname: seq<Byte>)
    requires ChallengeString(rand1, now1, clientname) == ChallengeString(rand2, now2, clientname)
    ensures rand1 == rand2 && now1 == now2
  {
    var c := ChallengeString(rand1, now1, clientname);
    var a1, a2 := Decimal(rand1), Decimal(rand2);
    NonceDigits(rand1, now1, clientname);
    NonceDigits(rand2, now2, clientname);
    assert |a1| == |a2|;
    SameDigits(c, 1, rand1, rand2);
    var b1, b2 := Decimal(now1), Decimal(now2);
    assert |b1| == |b2|;
    SameDigits(c, 2 + |a1|, now1, now2);
  }

  /** Two numbers whose renderings stand at the same place in a string
      are equal. */
  lemma SameDigits(c: seq<Byte>, i: nat, n1: nat, n2: nat)
    requires |Decimal(n1)| == |Decimal(n2)| && i + |Decimal(n1)| <= |c|
    requires c[i..i + |Decimal(n1)|] == Decimal(n1) && c[i..i + |Decimal(n2)|] == Decimal(n2)
    ensures n1 == n2
  {
    DecimalValue(n1);
    DecimalValue(n2);
  }

  /** In a challenge, the nonce's digits run up to the '.' after them. */
  lemma NonceDigits(rand: nat, now: nat, clientname: seq<Byte>)
    ensures var c := ChallengeString(rand, now, clientname);
            c[1 + |Decimal(rand)|] == '.' && forall i :: 1 <= i < 1 + |Decimal(rand)| ==> IsDigit(c[i])
  {
    var c := ChallengeString(rand, now, clientname);
    var a := Decimal(rand);
    forall i | 1 <= i < 1 + |a|
      ensures IsDigit(c[i])
    {
      assert c[i] == c[1..1 + |a|][i - 1];
    }
  }

  /** The challenge line is its four fields joined by spaces.  This is the
      unfolding step `AnyChallengeLineParses` starts from. */
  lemma ChallengeLineFields(chal: seq<Byte>, tls: nat)
    ensures var last := "ssl=" + Decimal(tls) + "\n";
            "auth" + [Space] + "cram-md5" + [Space] + chal + [Space] + last == ChallengeLine(chal, tls)
  {
    var last := "ssl=" + Decimal(tls) + "\n";
    assert "auth" + [Space] + "cram-md5" + [Space] == "auth cram-md5 ";
    assert [Space] + last == " ssl=" + Decimal(tls) + "\n";
  }

  /** The line the client sends when it challenges is in the format the
      client parses when it is challenged: for a client name without spaces
      and a one-digit ssl flag, parsing gives back the nonce and the flag. */
  lemma ChallengeLineParses(rand: nat, now: nat, clientname: seq<Byte>, tls: nat)
    requires Space !in clientname && tls < 10
    ensures ParseChallenge(ChallengeLine(ChallengeString(rand, now, clientname), tls))
            == Ok(Challenge(ChallengeString(rand, now, clientname), tls))
  {
    ChallengeStringHasNoSpace(rand, now, clientname);
    AnyChallengeLineParses(ChallengeString(rand, now, clientname), tls);
  }

  lemma AnyChallengeLineParses(chal: seq<Byte>, tls: nat)
    requires Space !in chal && tls < 10
    ensures ParseChallenge(ChallengeLine(chal, tls)) == Ok(Challenge(chal, tls))
  {
    SslField(tls);
    assert Space !in "auth" && Space !in "cram-md5";
    ChallengeLineFields(chal, tls);
    ParseFour("auth", "cram-md5", chal, "ssl=" + Decimal(tls) + "\n");
  }

  /** The last field of the challenge line, for a one-digit flag. */
  lemma SslField(tls: nat)
    requires tls < 10
    ensures var last := "ssl=" + Decimal(tls) + "\n";
            |last| == 6 && last[4] == DigitChar(tls) && Space !in last
  {
    assert Decimal(tls) == [DigitChar(tls)];
    var last := "ssl=" + Decimal(tls) + "\n";
    assert last == ['s', 's', 'l', '=', DigitChar(tls), '\n'];
  }

  /** The client accepts a reply, with or without NUL padding, exactly when
      it is one of the two base64 renderings of the expected digest. */
  lemma AcceptsEitherDialect(p: Protocol, password: seq<Byte>, chal: seq<Byte>, x: seq<Byte>,
                             before: nat, after: nat)
    requires x == [] || (x[0] != Nul && x[|x| - 1] != Nul)
    ensures Accepts(p, password, chal, Nuls(before) + x + Nuls(after))
            <==> (x == p.base64(p.hmacMd5(password, chal), true) || x == p.base64(p.hmacMd5(password, chal), false))
  {
    StripNulPadding(x, before, after);
  }

  /** The respond direction from what its two reads return: the response
      to the challenge of the line read is sent in between, and the result
      is the acknowledgement's verdict. */
  lemma RespondReads(p: Protocol, s: Session, password: seq<Byte>, inp: seq<Event>, line: seq<Byte>,
                     inp1: seq<Event>, ack: seq<Byte>, mid: seq<Event>)
    requires s.sock.Open? && Recv(s, inp) == Step(Ok(line), s, inp1, []) && ParseChallenge(line).Ok?
    requires |p.base64Default(p.hmacMd5(password, ParseChallenge(line).value.chal))| <= MaxInt32
    requires Writable(inp1) && Recv(s, inp1) == Step(Ok(ack), s, mid, [])
    ensures var ch := ParseChallenge(line).value;
            CramMd5Respond(p, s, inp, password)
            == Step(Ok(Reply(ch.ssl, true, p.isAuthOk(ack))), s, mid, [Frame(p.base64Default(p.hmacMd5(password, ch.chal)))])
  {
  }

  /** The challenge direction from what its read returns. */
  lemma ChallengeReads(p: Protocol, s: Session, clientname: seq<Byte>, password: seq<Byte>,
                       tls: nat, rand: nat, now: nat, inp: seq<Event>, reply: seq<Byte>, out: seq<Event>)
    requires 1000000000 <= rand <= 9999999999 && s.sock.Open? && Writable(inp)
    requires |ChallengeLine(ChallengeString(rand, now, clientname), tls)| <= MaxInt32
    requires |p.authOk| <= MaxInt32 && |p.authFailed| <= MaxInt32
    requires Recv(s, inp) == Step(Ok(reply), s, out, []) && Writable(out)
    ensures var chal := ChallengeString(rand, now, clientname);
            var ok := Accepts(p, password, chal, reply);
            CramMd5Challenge(p, s, inp, clientname, password, tls, rand, now)
            == Step(Ok(ok), s, out, [Frame(ChallengeLine(chal, tls)), Frame(if ok then p.authOk else p.authFailed)])
  {
    var chal := ChallengeString(rand, now, clientname);
    var ok := Accepts(p, password, chal, reply);
    assert CheckReply(p, s, inp, password, chal) == Step(Ok(ok), s, out, [Frame(if ok then p.authOk else p.authFailed)]);
    WritesInOrder(Frame(ChallengeLine(chal, tls)), Frame(if ok then p.authOk else p.authFailed), [], []);
  }

  /** The respond direction against a director that sends a challenge line
      and then an acknowledgement, cut into deliveries in any way a plan
      allows: the client sends one frame, the base64 of HMAC(password,
      chal), reads exactly the two frames, and succeeds exactly when the
      acknowledgement is the accepting one. */
  lemma RespondScript(p: Protocol, s: Session, password: seq<Byte>, ps: seq<Piece>,
                      more: seq<Byte>, rest: seq<Event>)
    requires s.sock.Open? && Encodable(ps) && |ps| >= 2
    requires ParseChallenge(Carried(ps[0].unit)).Ok?
    requires |p.base64Default(p.hmacMd5(password, ParseChallenge(Carried(ps[0].unit)).value.chal))| <= MaxInt32
    ensures var ch := ParseChallenge(Carried(ps[0].unit)).value;
            CramMd5Respond(p, s, Deliver(Chunks(ps, more), rest), password)
            == Step(Ok(Reply(ch.ssl, true, p.isAuthOk(Carried(ps[1].unit)))), s, Deliver(Chunks(ps[2..], more), rest),
                    [Frame(p.base64Default(p.hmacMd5(password, ch.chal)))])
  {
    RecvPiece(s, ps, more, rest);
    PlanWritable(ps[1..], more, rest);
    RecvPiece(s, ps[1..], more, rest);
    assert ps[1..][1..] == ps[2..];
    RespondReads(p, s, password, Deliver(Chunks(ps, more), rest), Carried(ps[0].unit),
                 Deliver(Chunks(ps[1..], more), rest), Carried(ps[1].unit), Deliver(Chunks(ps[2..], more), rest));
  }

  /** The client's check of a reply frame: it reads that frame and then
      acknowledges with `auth_ok` exactly when it accepts the reply. */
  lemma CheckReplyScript(p: Protocol, s: Session, password: seq<Byte>, chal: seq<Byte>,
                         ps: seq<Piece>, more: seq<Byte>, rest: seq<Event>)
    requires s.sock.Open? && Encodable(ps) && |ps| >= 1
    requires |p.authOk| <= MaxInt32 && |p.authFailed| <= MaxInt32
    requires Writable(Deliver(Chunks(ps[1..], more), rest))
    ensures var ok := Accepts(p, password, chal, Carried(ps[0].unit));
            CheckReply(p, s, Deliver(Chunks(ps, more), rest), password, chal)
            == Step(Ok(ok), s, Deliver(Chunks(ps[1..], more), rest), [Frame(if ok then p.authOk else p.authFailed)])
  {
    RecvPiece(s, ps, more, rest);
  }

  /** The challenge direction against a director that sends one reply
      frame: the client sends its challenge line, reads exactly that frame,
      then sends exactly one acknowledgement, `auth_ok` when it accepts the
      reply and `auth_failed` otherwise, and returns its decision. */
  lemma ChallengeScript(p: Protocol, s: Session, clientname: seq<Byte>, password: seq<Byte>,
                        tls: nat, rand: nat, now: nat, ps: seq<Piece>,
                        more: seq<Byte>, rest: seq<Event>)
    requires 1000000000 <= rand <= 9999999999 && s.sock.Open?
    requires |ChallengeLine(ChallengeString(rand, now, clientname), tls)| <= MaxInt32
    requires Encodable(ps) && |ps| >= 1 && |p.authOk| <= MaxInt32 && |p.authFailed| <= MaxInt32
    requires Writable(Deliver(Chunks(ps[1..], more), rest))
    ensures var chal := ChallengeString(rand, now, clientname);
            var ok := Accepts(p, password, chal, Carried(ps[0].unit));
            CramMd5Challenge(p, s, Deliver(Chunks(ps, more), rest), clientname, password, tls, rand, now)
            == Step(Ok(ok), s, Deliver(Chunks(ps[1..], more), rest),
                    [Frame(ChallengeLine(chal, tls)), Frame(if ok then p.authOk else p.authFailed)])
  {
    PlanWritable(ps, more, rest);
    RecvPiece(s, ps, more, rest);
    ChallengeReads(p, s, clientname, password, tls, rand, now, Deliver(Chunks(ps, more), rest),
                   Carried(ps[0].unit), Deliver(Chunks(ps[1..], more), rest));
  }

  /** `auth` after the hello, from what its two directions do. */
  lemma AfterHelloSteps(p: Protocol, s: Session, inp: seq<Event>, md5: seq<Byte>, clientname: seq<Byte>,
                        rand: nat, now: nat, reply: Reply, mid: seq<Event>, response: seq<Byte>,
                        accepted: bool, out: seq<Event>, own: seq<seq<Byte>>)
    requires 1000000000 <= rand <= 9999999999
    requires CramMd5Respond(p, s, inp, md5) == Step(Ok(reply), s, mid, [response])
    requires reply.result ==> CramMd5Challenge(p, s, mid, clientname, md5, 0, rand, now) == Step(Ok(accepted), s, out, own)
    ensures AuthAfterHello(p, s, inp, md5, clientname, rand, now)
            == if !reply.result then Step(Err(AuthError(FailedRespond)), s, mid, [response])
               else if !accepted then Step(Err(AuthError(FailedChallenge)), s, out, [response] + own)
               else Step(Ok(true), s, out, [response] + own)
  {
  }

  /** The three frames `auth` sends after the hello, whenever both
      directions ran: the response, the client's challenge line, and the
      acknowledgement of the director's reply. */
  lemma AfterHelloOrder(p: Protocol, s: Session, inp: seq<Event>, md5: seq<Byte>, clientname: seq<Byte>,
                        rand: nat, now: nat)
    requires 1000000000 <= rand <= 9999999999
    ensures var r := AuthAfterHello(p, s, inp, md5, clientname, rand, now);
            r.result.Ok? || r.result == Err(AuthError(FailedChallenge)) ==>
              |r.writes| == 3
              && (exists chal :: IsFrameOf(r.writes[0], p.base64Default(p.hmacMd5(md5, chal))))
              && IsFrameOf(r.writes[1], ChallengeLine(ChallengeString(rand, now, clientname), 0))
              && IsFrameOf(r.writes[2], if r.result.Ok? then p.authOk else p.authFailed)
  {
    var r := AuthAfterHello(p, s, inp, md5, clientname, rand, now);
    var r2 := CramMd5Respond(p, s, inp, md5);
    if r2.result.Ok? && r2.result.value.result {
      var r3 := CramMd5Challenge(p, r2.session, r2.input, clientname, md5, 0, rand, now);
      if r3.result.Ok? {
        ThreeWrites(r.writes, r2.writes, r3.writes);
      }
    }
  }

  lemma ThreeWrites(w: seq<seq<Byte>>, a: seq<seq<Byte>>, b: seq<seq<Byte>>)
    requires w == a + b && |a| == 1 && |b| == 2
    ensures |w| == 3 && w[0] == a[0] && w[1] == b[0] && w[2] == b[1]
  {
  }

  lemma WritesInOrder(a: seq<Byte>, b: seq<Byte>, c: seq<Byte>, d: seq<Byte>)
    ensures [a] + ([b] + [c, d]) == [a, b, c, d]
    ensures [a] + ([b] + []) == [a, b]
    ensures [a] + [b] == [a, b]
  {
  }

  /** `auth` with a password, from what the hello and the part after it
      do. */
  lemma AuthSteps(p: Protocol, s: Session, inp: seq<Event>, md5: seq<Byte>, clientname: seq<Byte>,
                  rand: nat, now: nat)
    requires 1000000000 <= rand <= 9999999999 && s.sock.Open? && |p.hello(clientname)| <= MaxInt32
    requires Writable(inp)
    ensures var r := AuthAfterHello(p, s, inp, md5, clientname, rand, now);
            Auth(p, s, inp, Password(md5), clientname, rand, now)
            == Step(r.result, r.session, r.input, [Frame(p.hello(clientname))] + r.writes)
  {
  }

  /** `auth` with a password against a director that accepts the client's
      response, from what the two directions do: hello, response and the
      client's two frames are sent in that order, and the verdict on the
      director's reply decides the outcome. */
  lemma AuthBothWays(p: Protocol, s: Session, inp: seq<Event>, md5: seq<Byte>, clientname: seq<Byte>,
                     rand: nat, now: nat, reply: Reply, mid: seq<Event>, response: seq<Byte>,
                     accepted: bool, out: seq<Event>, own: seq<seq<Byte>>)
    requires 1000000000 <= rand <= 9999999999 && s.sock.Open? && |p.hello(clientname)| <= MaxInt32
    requires Writable(inp)
    requires CramMd5Respond(p, s, inp, md5) == Step(Ok(reply), s, mid, [response]) && reply.result
    requires CramMd5Challenge(p, s, mid, clientname, md5, 0, rand, now) == Step(Ok(accepted), s, out, own)
    requires |own| == 2
    ensures Auth(p, s, inp, Password(md5), clientname, rand, now)
            == Step(if accepted then Ok(true) else Err(AuthError(FailedChallenge)), s, out,
                    [Frame(p.hello(clientname)), response, own[0], own[1]])
  {
    AfterHelloSteps(p, s, inp, md5, clientname, rand, now, reply, mid, response, accepted, out, own);
    AuthSteps(p, s, inp, md5, clientname, rand, now);
    FourWrites(Frame(p.hello(clientname)), response, own);
  }

  lemma FourWrites(a: seq<Byte>, b: seq<Byte>, own: seq<seq<Byte>>)
    requires |own| == 2
    ensures [a] + ([b] + own) == [a, b, own[0], own[1]]
  {
    assert own == [own[0], own[1]];
  }

  /** `auth` with a password from what its three reads return, when the
      director accepts the response. */
  lemma AuthReads(p: Protocol, s: Session, md5: seq<Byte>, clientname: seq<Byte>, rand: nat, now: nat,
                  inp: seq<Event>, line: seq<Byte>, inp1: seq<Event>, ack: seq<Byte>, mid: seq<Event>,
                  reply: seq<Byte>, out: seq<Event>)
    requires 1000000000 <= rand <= 9999999999 && s.sock.Open? && |p.hello(clientname)| <= MaxInt32
    requires |p.authOk| <= MaxInt32 && |p.authFailed| <= MaxInt32
    requires |ChallengeLine(ChallengeString(rand, now, clientname), 0)| <= MaxInt32
    requires Writable(inp) && Recv(s, inp) == Step(Ok(line), s, inp1, []) && ParseChallenge(line).Ok?
    requires |p.base64Default(p.hmacMd5(md5, ParseChallenge(line).value.chal))| <= MaxInt32
    requires Writable(inp1) && Recv(s, inp1) == Step(Ok(ack), s, mid, []) && p.isAuthOk(ack)
    requires Writable(mid) && Recv(s, mid) == Step(Ok(reply), s, out, []) && Writable(out)
    ensures var ok := Accepts(p, md5, ChallengeString(rand, now, clientname), reply);
            Auth(p, s, inp, Password(md5), clientname, rand, now)
            == Step(if ok then Ok(true) else Err(AuthError(FailedChallenge)), s, out,
                    [Frame(p.hello(clientname)),
                     Frame(p.base64Default(p.hmacMd5(md5, ParseChallenge(line).value.chal))),
                     Frame(ChallengeLine(ChallengeString(rand, now, clientname), 0)),
                     Frame(if ok then p.authOk else p.authFailed)])
  {
    var ch := ParseChallenge(line).value;
    var ok := Accepts(p, md5, ChallengeString(rand, now, clientname), reply);
    var own := [Frame(ChallengeLine(ChallengeString(rand, now, clientname), 0)), Frame(if ok then p.authOk else p.authFailed)];
    RespondReads(p, s, md5, inp, line, inp1, ack, mid);
    ChallengeReads(p, s, clientname, md5, 0, rand, now, mid, reply, out);
    AuthBothWays(p, s, inp, md5, clientname, rand, now, Reply(ch.ssl, true, true), mid,
                 Frame(p.base64Default(p.hmacMd5(md5, ch.chal))), ok, out, own);
  }

  /** The whole handshake against a director that sends its challenge
      line, accepts the client's response and then answers the client's
      challenge, however the three frames are delivered: hello, response,
      the client's challenge line and one acknowledgement are sent in that
      order, exactly the three frames are read, and the verdict on the
      director's reply decides between success and "failed challenge". */
  lemma AuthAnswered(p: Protocol, s: Session, md5: seq<Byte>, clientname: seq<Byte>,
                     rand: nat, now: nat, ps: seq<Piece>, more: seq<Byte>, rest: seq<Event>)
    requires 1000000000 <= rand <= 9999999999 && s.sock.Open? && |p.hello(clientname)| <= MaxInt32
    requires Encodable(ps) && |ps| >= 3 && |p.authOk| <= MaxInt32 && |p.authFailed| <= MaxInt32
    requires ParseChallenge(Carried(ps[0].unit)).Ok?
    requires |p.base64Default(p.hmacMd5(md5, ParseChallenge(Carried(ps[0].unit)).value.chal))| <= MaxInt32
    requires |ChallengeLine(ChallengeString(rand, now, clientname), 0)| <= MaxInt32
    requires Writable(Deliver(Chunks(ps[3..], more), rest))
    requires p.isAuthOk(Carried(ps[1].unit))
    ensures var ok := Accepts(p, md5, ChallengeString(rand, now, clientname), Carried(ps[2].unit));
            Auth(p, s, Deliver(Chunks(ps, more), rest), Password(md5), clientname, rand, now)
            == Step(if ok then Ok(true) else Err(AuthError(FailedChallenge)), s, Deliver(Chunks(ps[3..], more), rest),
                    [Frame(p.hello(clientname)),
                     Frame(p.base64Default(p.hmacMd5(md5, ParseChallenge(Carried(ps[0].unit)).value.chal))),
                     Frame(ChallengeLine(ChallengeString(rand, now, clientname), 0)),
                     Frame(if ok then p.authOk else p.authFailed)])
  {
    ThreeReads(s, ps, more, rest);
    AuthReads(p, s, md5, clientname, rand, now, Deliver(Chunks(ps, more), rest), Carried(ps[0].unit),
              Deliver(Chunks(ps[1..], more), rest), Carried(ps[1].unit), Deliver(Chunks(ps[2..], more), rest),
              Carried(ps[2].unit), Deliver(Chunks(ps[3..], more), rest));
  }

  /** The first three units of a plan, read one by one. */
  lemma ThreeReads(s: Session, ps: seq<Piece>, more: seq<Byte>, rest: seq<Event>)
    requires s.sock.Open? && Encodable(ps) && |ps| >= 3
    ensures Writable(Deliver(Chunks(ps, more), rest))
    ensures Recv(s, Deliver(Chunks(ps, more), rest))
            == Step(Ok(Carried(ps[0].unit)), s, Deliver(Chunks(ps[1..], more), rest), [])
    ensures Writable(Deliver(Chunks(ps[1..], more), rest))
    ensures Recv(s, Deliver(Chunks(ps[1..], more), rest))
            == Step(Ok(Carried(ps[1].unit)), s, Deliver(Chunks(ps[2..], more), rest), [])
    ensures Writable(Deliver(Chunks(ps[2..], more), rest))
    ensures Recv(s, Deliver(Chunks(ps[2..], more), rest))
            == Step(Ok(Carried(ps[2].unit)), s, Deliver(Chunks(ps[3..], more), rest), [])
  {
    RecvPiece(s, ps, more, rest);
    RecvPiece(s, ps[1..], more, rest);
    RecvPiece(s, ps[2..], more, rest);
    assert ps[1..][1..] == ps[2..] && ps[2..][1..] == ps[3..];
    PlanWritable(ps, more, rest);
    PlanWritable(ps[1..], more, rest);
    PlanWritable(ps[2..], more, rest);
  }

  /** The director also answers the client's challenge correctly: hello,
      response, the client's challenge line and `auth_ok` are sent, in that
      order, and `auth` returns true. */
  lemma AuthAccepted(p: Protocol, s: Session, md5: seq<Byte>, clientname: seq<Byte>,
                     rand: nat, now: nat, ps: seq<Piece>, more: seq<Byte>, rest: seq<Event>)
    requires 1000000000 <= rand <= 9999999999 && s.sock.Open? && |p.hello(clientname)| <= MaxInt32
    requires Encodable(ps) && |ps| >= 3 && |p.authOk| <= MaxInt32 && |p.authFailed| <= MaxInt32
    requires ParseChallenge(Carried(ps[0].unit)).Ok?
    requires |p.base64Default(p.hmacMd5(md5, ParseChallenge(Carried(ps[0].unit)).value.chal))| <= MaxInt32
    requires |ChallengeLine(ChallengeString(rand, now, clientname), 0)| <= MaxInt32
    requires Writable(Deliver(Chunks(ps[3..], more), rest))
    requires p.isAuthOk(Carried(ps[1].unit)) && Accepts(p, md5, ChallengeString(rand, now, clientname), Carried(ps[2].unit))
    ensures Auth(p, s, Deliver(Chunks(ps, more), rest), Password(md5), clientname, rand, now)
            == Step(Ok(true), s, Deliver(Chunks(ps[3..], more), rest),
                    [Frame(p.hello(clientname)),
                     Frame(p.base64Default(p.hmacMd5(md5, ParseChallenge(Carried(ps[0].unit)).value.chal))),
                     Frame(ChallengeLine(ChallengeString(rand, now, clientname), 0)),
                     Frame(p.authOk)])
  {
    AuthAnswered(p, s, md5, clientname, rand, now, ps, more, rest);
  }

  /** The director accepts the client's response but the client rejects the
      director's reply: `auth_failed` is still sent before `auth` raises. */
  lemma AuthReplyRejected(p: Protocol, s: Session, md5: seq<Byte>, clientname: seq<Byte>,
                          rand: nat, now: nat, ps: seq<Piece>, more: seq<Byte>, rest: seq<Event>)
    requires 1000000000 <= rand <= 9999999999 && s.sock.Open? && |p.hello(clientname)| <= MaxInt32
    requires Encodable(ps) && |ps| >= 3 && |p.authOk| <= MaxInt32 && |p.authFailed| <= MaxInt32
    requires ParseChallenge(Carried(ps[0].unit)).Ok?
    requires |p.base64Default(p.hmacMd5(md5, ParseChallenge(Carried(ps[0].unit)).value.chal))| <= MaxInt32
    requires |ChallengeLine(ChallengeString(rand, now, clientname), 0)| <= MaxInt32
    requires Writable(Deliver(Chunks(ps[3..], more), rest))
    requires p.isAuthOk(Carried(ps[1].unit)) && !Accepts(p, md5, ChallengeString(rand, now, clientname), Carried(ps[2].unit))
    ensures Auth(p, s, Deliver(Chunks(ps, more), rest), Password(md5), clientname, rand, now)
            == Step(Err(AuthError(FailedChallenge)), s, Deliver(Chunks(ps[3..], more), rest),
                    [Frame(p.hello(clientname)),
                     Frame(p.base64Default(p.hmacMd5(md5, ParseChallenge(Carried(ps[0].unit)).value.chal))),
                     Frame(ChallengeLine(ChallengeString(rand, now, clientname), 0)),
                     Frame(p.authFailed)])
  {
    AuthAnswered(p, s, md5, clientname, rand, now, ps, more, rest);
  }

  /** The director rejects the client's response: `auth` raises right after
      reading the acknowledgement, and the client's own challenge never
      starts, so nothing more is sent or read. */
  lemma AuthResponseRejected(p: Protocol, s: Session, md5: seq<Byte>, clientname: seq<Byte>,
                             rand: nat, now: nat, ps: seq<Piece>, more: seq<Byte>, rest: seq<Event>)
    requires 1000000000 <= rand <= 9999999999 && s.sock.Open? && |p.hello(clientname)| <= MaxInt32
    requires Encodable(ps) && |ps| >= 2
    requires ParseChallenge(Carried(ps[0].unit)).Ok?
    requires |p.base64Default(p.hmacMd5(md5, ParseChallenge(Carried(ps[0].unit)).value.chal))| <= MaxInt32
    requires !p.isAuthOk(Carried(ps[1].unit))
    ensures Auth(p, s, Deliver(Chunks(ps, more), rest), Password(md5), clientname, rand, now)
            == Step(Err(AuthError(FailedRespond)), s, Deliver(Chunks(ps[2..], more), rest),
                    [Frame(p.hello(clientname)),
                     Frame(p.base64Default(p.hmacMd5(md5, ParseChallenge(Carried(ps[0].unit)).value.chal)))])
  {
    var ch := ParseChallenge(Carried(ps[0].unit)).value;
    var response := Frame(p.base64Default(p.hmacMd5(md5, ch.chal)));
    var inp := Deliver(Chunks(ps, more), rest);
    var out := Deliver(Chunks(ps[2..], more), rest);
    RespondScript(p, s, md5, ps, more, rest);
    AfterHelloSteps(p, s, inp, md5, clientname, rand, now, Reply(ch.ssl, true, false),
                    out, response, false, out, []);
    PlanWritable(ps, more, rest);
    AuthSteps(p, s, inp, md5, clientname, rand, now);
    assert [Frame(p.hello(clientname))] + ([response] + []) == [Frame(p.hello(clientname)), response] by {
      WritesInOrder(Frame(p.hello(clientname)), response, [], []);
    }
  }
}

=== FILE: lowlevel.dfy ===
/** The low-level half of the console client: the session record, `send`,
    `recv`, `recv_msg`, `connect` and the prompt probe.  Every operation is
    a function from the session and the socket script to a `Step`: what the
    Python method returns or raises, the session afterwards, what is left
    of the script, and the buffers handed to `sendall`. */
module LowLevel {
  import opened Base
  import opened Framing
  import opened Transport

  /** `self.socket`: unset, or open with a 0.1 s read timeout (`timed`) or
      blocking. */
  datatype SocketState = NoSocket | Open(timed: bool)

  /** The attributes of a `LowLevel` object the core reads or writes. */
  datatype Session = Session(
    address: seq<Byte>,
    port: int,
    dirname: seq<Byte>,
    sock: SocketState,
    status: Option<int>)

  /** Why a handshake failed (`AuthenticationError`). */
  datatype AuthFailure = NotAPassword | FailedRespond | FailedChallenge

  /** The exceptions the core raises. */
  datatype Error =
    | NotConnected          // RuntimeError: "should connect to director first ..."
    | MsgLenError           // RuntimeError: "get the msglen error"
    | StructError           // struct.error: a length outside 32 bits, a short header
    | SocketTimeout         // socket.timeout from a read on a timed socket
    | SocketError           // socket.error let through by `recv`
    | ConnectError          // ConnectionError: the address did not resolve
    | ParseError            // IndexError / ValueError on a malformed challenge line
    | AuthError(why: AuthFailure)
    | Hang                  // the call never returns

  /** The errors an `except RuntimeError` clause catches. */
  predicate IsRuntimeError(e: Error) {
    e.NotConnected? || e.MsgLenError?
  }

  datatype Result<+T> = Ok(value: T) | Err(error: Error)

  datatype Step<+T> = Step(result: Result<T>, session: Session, input: seq<Event>, writes: seq<seq<Byte>>)

  /** The values of `Constants.BNET_EOD`, `BNET_MAIN_PROMPT` and
      `BNET_SUB_PROMPT`. */
  datatype Codes = Codes(eod: int, mainPrompt: int, subPrompt: int)

  /** A status that ends message assembly. */
  predicate Terminal(c: Codes, code: int) {
    code <= 0 && (code == c.eod || code == c.mainPrompt || code == c.subPrompt)
  }

  /** What `socket.create_connection` did. */
  datatype ConnectOutcome = Opened | NotResolved | Refused

  /** `connect(address, port, dirname)`: the director name defaults to the
      address when no non-empty name is given.  A name that does not
      resolve clears the socket and raises `ConnectionError`; any other
      socket error escapes with the previous socket left in place, and so
      is what was still to be read from it (`inp`).  `newInput` is what the
      director will send on a new connection. */
  function Connect(s: Session, inp: seq<Event>, address: seq<Byte>, port: int, dirname: Option<seq<Byte>>,
                   outcome: ConnectOutcome, newInput: seq<Event>): (r: Step<()>)
    ensures r.session.address == address && r.session.port == port && r.session.status == s.status
    ensures dirname.Some? && dirname.value != [] ==> r.session.dirname == dirname.value
    ensures dirname.None? || dirname.value == [] ==> r.session.dirname == address
    ensures r.result.Ok? <==> outcome == Opened
    ensures r.result.Ok? ==> r.session.sock == Open(false)
    ensures outcome == NotResolved ==> r.result == Err(ConnectError) && r.session.sock == NoSocket
    ensures outcome == Refused ==> r.session.sock == s.sock && r.input == inp
    ensures outcome == Opened ==> r.input == newInput
    ensures r.writes == []
  {
    var name := if dirname.Some? && |dirname.value| > 0 then dirname.value else address;
    var s1 := s.(address := address, port := port, dirname := name);
    match outcome
    case Opened => Step(Ok(()), s1.(sock := Open(false)), newInput, [])
    case NotResolved => Step(Err(ConnectError), HandleSocketError(s1), inp, [])
    case Refused => Step(Err(SocketError), s1, inp, [])
  }

  /** A connection that opened is ready for use: the next `send` hands its
      frame to the new socket, and `recv` reads what the director sends on
      it, whatever state the session was in before. */
  lemma ConnectThenSend(s: Session, inp: seq<Event>, address: seq<Byte>, port: int, dirname: Option<seq<Byte>>,
                        newInput: seq<Event>, msg: seq<Byte>)
    requires |msg| <= MaxInt32 && Writable(newInput)
    ensures var r := Connect(s, inp, address, port, dirname, Opened, newInput);
            Send(r.session, r.input, msg) == Step(Ok(()), r.session, newInput, [Frame(msg)])
            && Recv(r.session, r.input).result == Recv(s.(sock := Open(false)), newInput).result
            && Recv(r.session, r.input).input == Recv(s.(sock := Open(false)), newInput).input
  {
  }

  /** `_handleSocketError`: forget the socket, keep everything else. */
  function HandleSocketError(s: Session): (r: Session)
    ensures r.sock == NoSocket
    ensures r.(sock := s.sock) == s
  {
    s.(sock := NoSocket)
  }

  /** `__set_status`: remember the last status code read. */
  function SetStatus(s: Session, code: int): (r: Session)
    ensures r.status == Some(code)
    ensures r.(status := s.status) == s
  {
    s.(status := Some(code))
  }

  /** `send(msg)`: hand one frame to `sendall`.  A socket error is swallowed
      after clearing the socket (the frame was handed over, but how much of
      it reached the peer is unknown); a message too long for the header
      raises `struct.error` before anything is written. */
  function Send(s: Session, inp: seq<Event>, msg: seq<Byte>): (r: Step<()>)
    ensures s.sock.NoSocket? ==> r == Step(Err(NotConnected), s, inp, [])
    ensures s.sock.Open? && |msg| > MaxInt32 ==> r == Step(Err(StructError), s, inp, [])
    ensures |r.writes| <= 1
    ensures |r.writes| == 1 ==> |msg| <= MaxInt32 && r.writes[0] == Frame(msg)
                                && Unpack(r.writes[0][..4]) == |msg| && r.writes[0][4..] == msg
    ensures s.sock.Open? && |msg| <= MaxInt32 && Writable(inp)
            ==> r == Step(Ok(()), s, inp, [Frame(msg)])
    ensures s.sock.Open? && |msg| <= MaxInt32 && !Writable(inp)
            ==> r == Step(Ok(()), HandleSocketError(s), inp[1..], [Frame(msg)])
    ensures r.result.Err? ==> r.session == s && r.input == inp && r.writes == []
    ensures r.result.Err? ==> r.result.error in {NotConnected, StructError}
    ensures r.input == inp || (inp != [] && inp[0].Fail? && r.input == inp[1..])
    ensures r.session == s || r.session == HandleSocketError(s)
  {
    if s.sock.NoSocket? then Step(Err(NotConnected), s, inp, [])
    else if |msg| > MaxInt32 then Step(Err(StructError), s, inp, [])
    else if |inp| > 0 && inp[0].Fail? then Step(Ok(()), HandleSocketError(s), inp[1..], [Frame(msg)])
    else Step(Ok(()), s, inp, [Frame(msg)])
  }

  /** The last value a payload loop left in its buffer. */
  function LastBuffer(bufs: seq<seq<Byte>>): seq<Byte> {
    if |bufs| == 0 then [] else bufs[|bufs| - 1]
  }

  /** The value `recv` returns holds everything the payload loop received:
      the buffer it started from and every earlier buffer value are
      prefixes of it. */
  lemma {:induction false} LastBufferHoldsAll(buf: seq<Byte>, bufs: seq<seq<Byte>>)
    requires Growing(buf, bufs) && |bufs| > 0
    ensures |buf| <= |LastBuffer(bufs)| && LastBuffer(bufs)[..|buf|] == buf
    ensures forall i :: 0 <= i < |bufs| ==> |bufs[i]| <= |LastBuffer(bufs)| && LastBuffer(bufs)[..|bufs[i]|] == bufs[i]
    decreases |bufs|
  {
    if |bufs| > 1 {
      LastBufferHoldsAll(bufs[0], bufs[1..]);
      assert LastBuffer(bufs) == LastBuffer(bufs[1..]);
      var l := LastBuffer(bufs);
      assert l[..|buf|] == l[..|bufs[0]|][..|buf|];
      forall i | 0 <= i < |bufs|
        ensures |bufs[i]| <= |l| && l[..|bufs[i]|] == bufs[i]
      {
        if i > 0 {
          assert bufs[i] == bufs[1..][i - 1];
        }
      }
    }
  }

  /** `recv()`: read one frame.  A closed socket raises "get the msglen
      error"; a header of zero or below yields the empty string without
      reading a payload; a positive length runs the payload loop on the
      socket's current timeout.  The session is never changed. */
  function Recv(s: Session, inp: seq<Event>): (r: Step<seq<Byte>>)
    ensures r.session == s && r.writes == []
    ensures s.sock.NoSocket? ==> r.result == Err(NotConnected) && r.input == inp
    ensures s.sock.Open? && Closed(inp) ==> r.result == Err(MsgLenError) && r.input == inp
    ensures Size(r.input) <= Size(inp)
    ensures r.result.Err? ==> r.result.error in {NotConnected, MsgLenError, StructError, SocketTimeout, SocketError, Hang}
  {
    if s.sock.NoSocket? then Step(Err(NotConnected), s, inp, [])
    else match Read(inp, 4, s.sock.timed)
      case TimedOut(rest) => Step(Err(SocketTimeout), s, rest, [])
      case Errored(rest) => Step(Err(SocketError), s, rest, [])
      case Got(h, rest) =>
        if |h| == 0 then Step(Err(MsgLenError), s, rest, [])
        else if |h| != 4 then Step(Err(StructError), s, rest, [])
        else match Drain(rest, Unpack(h), [], s.sock.timed)
          case Filled(bufs, r) => Step(Ok(LastBuffer(bufs)), s, r, [])
          case Broken(t, _, r) => Step(Err(if t then SocketTimeout else SocketError), s, r, [])
          case Spins => Step(Err(Hang), s, rest, [])
  }

  /** `recv_msg()`: join frames into one message until a terminating
      status. */
  function RecvMsg(c: Codes, s: Session, inp: seq<Event>): (r: Step<seq<Byte>>)
    ensures s.sock.NoSocket? ==> r == Step(Err(NotConnected), s, inp, [])
    ensures r.writes == []
    ensures r.session.(sock := s.sock, status := s.status) == s
    ensures r.session.sock != Open(false)
    ensures r.result.Err? ==> r.result.error in {NotConnected, StructError, Hang}
  {
    if s.sock.NoSocket? then Step(Err(NotConnected), s, inp, [])
    else RecvMsgLoop(c, s, inp, [])
  }

  /** One turn of the `while True` loop of `recv_msg` and all the turns
      after it; `msg` is the message assembled so far.  Each header is read
      with the 0.1 s timeout, each payload with a blocking socket. */
  function RecvMsgLoop(c: Codes, s: Session, inp: seq<Event>, msg: seq<Byte>): (r: Step<seq<Byte>>)
    requires s.sock.Open?
    ensures r.writes == []
    ensures r.session.(sock := s.sock, status := s.status) == s
    ensures r.session.sock in {NoSocket, Open(true)}
    ensures r.result.Err? ==> r.result.error in {StructError, Hang}
    ensures r.result.Ok? ==> |r.result.value| >= |msg| && r.result.value[..|msg|] == msg
    decreases Size(inp)
  {
    var s0 := s.(sock := Open(true));
    match Read(inp, 4, true)
    case TimedOut(rest) => RecvMsgLoop(c, s0, rest, msg)
    case Errored(rest) => Step(Ok(msg), HandleSocketError(s0), rest, [])
    case Got(h, rest) =>
      if |h| == 0 then Step(Ok(msg), s0, rest, [])
      else if |h| != 4 then Step(Err(StructError), s0, rest, [])
      else
        var L := Unpack(h);
        var s1 := if L <= 0 then SetStatus(s0, L) else s0;
        if L <= 0 && Terminal(c, L) then Step(Ok(msg), s1, rest, [])
        else match Drain(rest, L, [], false)
          case Filled(bufs, rest') =>
            var m := msg + Flatten(bufs);
            var r := RecvMsgLoop(c, s1, rest', m);
            assert m[..|msg|] == msg;
            assert r.result.Ok? ==> r.result.value[..|msg|] == m[..|m|][..|msg|];
            r
          case Broken(_, bufs, rest') =>
            var m := msg + Flatten(bufs);
            assert m[..|msg|] == msg;
            Step(Ok(m), HandleSocketError(s1), rest', [])
          case Spins => Step(Err(Hang), s1, rest, [])
  }

  /** `_set_state_director_prompt`: send "." and drain the answer; the
      answer itself is not looked at. */
  function SetStateDirectorPrompt(c: Codes, s: Session, inp: seq<Event>): (r: Step<bool>)
    ensures r.result.Ok? ==> r.result.value
    ensures r.writes == [] || r.writes == [Frame(".")]
    ensures s.sock.Open? ==> r.writes == [Frame(".")]
    ensures s.sock.NoSocket? ==> r == Step(Err(NotConnected), s, inp, [])
  {
    var r1 := Send(s, inp, ".");
    if r1.result.Err? then Step(Err(r1.result.error), r1.session, r1.input, r1.writes)
    else
      var r2 := RecvMsg(c, r1.session, r1.input);
      match r2.result
      case Err(e) => Step(Err(e), r2.session, r2.input, r1.writes)
      case Ok(_) => Step(Ok(true), r2.session, r2.input, r1.writes)
  }
}

=== FILE: recv_lemmas.dfy ===
/** What `recv` and `recv_msg` return for the frames a director sends,
    first for any delivery plan that cuts the stream only between units or
    between a header and its payload, and then for payloads that arrive in
    pieces. */
module RecvLemmas {
  import opened Base
  import opened Framing
  import opened Transport
  import opened Delivery
  import opened LowLevel

  /** `recv` once its header read and its payload loop are known. */
  lemma RecvStep(s: Session, inp: seq<Event>, L: int, tail: seq<Event>, bufs: seq<seq<Byte>>, r: seq<Event>)
    requires s.sock.Open? && IsInt32(L)
    requires Read(inp, 4, s.sock.timed) == Got(Pack(L), tail)
    requires Drain(tail, L, [], s.sock.timed) == Filled(bufs, r)
    ensures Recv(s, inp) == Step(Ok(LastBuffer(bufs)), s, r, [])
  {
    UnpackPack(L);
  }

  /** `recv` on a frame, delivered whole or with its header in a delivery of
      its own, returns exactly its payload and leaves everything after it
      unread; an empty payload is not read. */
  lemma {:induction false} RecvFrame(s: Session, p: seq<Byte>, split: bool, more: seq<Byte>, rest: seq<Event>)
    requires s.sock.Open? && |p| <= MaxInt32
    ensures Recv(s, Sent(p, split, more, rest)) == Step(Ok(p), s, Push(more, rest), [])
  {
    var t := s.sock.timed;
    if split && |p| > 0 {
      ReadWhole(Pack(|p|), [], Push(p + more, rest), t);
      assert Pack(|p|) + [] == Pack(|p|);
      DrainWhole(p, more, rest, t);
      RecvStep(s, Sent(p, split, more, rest), |p|, Push(p + more, rest), [p], Push(more, rest));
    } else {
      assert Frame(p) + more == Pack(|p|) + (p + more);
      ReadWhole(Pack(|p|), p + more, rest, t);
      if |p| > 0 {
        DrainWhole(p, more, rest, t);
        RecvStep(s, Sent(p, split, more, rest), |p|, Push(p + more, rest), [p], Push(more, rest));
      } else {
        assert p + more == more;
        RecvStep(s, Sent(p, split, more, rest), 0, Push(more, rest), [], Push(more, rest));
      }
    }
  }

  /** A header of zero or below makes `recv` return the empty string without
      reading any payload. */
  lemma {:induction false} RecvSignal(s: Session, code: int, more: seq<Byte>, rest: seq<Event>)
    requires s.sock.Open? && MinInt32 <= code <= 0
    ensures Recv(s, Push(Pack(code) + more, rest)) == Step(Ok([]), s, Push(more, rest), [])
  {
    ReadWhole(Pack(code), more, rest, s.sock.timed);
    RecvStep(s, Push(Pack(code) + more, rest), code, Push(more, rest), [], Push(more, rest));
  }

  /** `recv` on the first unit of any delivery plan returns the bytes it
      carries (none for a signal) and leaves the script of the remaining
      pieces. */
  lemma {:induction false} RecvPiece(s: Session, ps: seq<Piece>, tail: seq<Byte>, rest: seq<Event>)
    requires s.sock.Open? && Encodable(ps) && |ps| > 0
    ensures Recv(s, Deliver(Chunks(ps, tail), rest))
            == Step(Ok(Carried(ps[0].unit)), s, Deliver(Chunks(ps[1..], tail), rest), [])
  {
    var u := ps[0].unit;
    FirstPiece(ps, tail, rest);
    var x, r := Lead(ps, tail), Behind(ps, tail, rest);
    assert WellFormed(u);
    if u.Chunk? {
      RecvFrame(s, u.payload, ps[0].splitHeader, x, r);
    } else {
      RecvSignal(s, u.code, x, r);
    }
  }

  /** A payload announced by its header and then delivered in two pieces is
      still returned whole by `recv`. */
  lemma {:induction false} RecvTwoPieces(s: Session, a: seq<Byte>, b: seq<Byte>, rest: seq<Event>)
    requires s.sock.Open? && |a| > 0 && |b| > 0 && |a| + |b| <= MaxInt32
    ensures Recv(s, [Data(Pack(|a| + |b|)), Data(a), Data(b)] + rest) == Step(Ok(a + b), s, rest, [])
  {
    var tail := [Data(a), Data(b)] + rest;
    HeadDelivery(Pack(|a| + |b|), tail, s.sock.timed);
    DrainTwoPieces(a, b, rest, s.sock.timed);
    RecvStep(s, [Data(Pack(|a| + |b|))] + tail, |a| + |b|, tail, [a, a + b], rest);
    assert [Data(Pack(|a| + |b|)), Data(a), Data(b)] + rest == [Data(Pack(|a| + |b|))] + tail;
  }

  /** Three pieces of 3, 3 and 4 bytes: `recv` returns seven bytes and the
      last three stay in the socket, to be read as the start of the next
      header. */
  lemma {:induction false} RecvThreePieces(s: Session, a: seq<Byte>, b: seq<Byte>, c: seq<Byte>, rest: seq<Event>)
    requires s.sock.Open? && |a| == 3 && |b| == 3 && |c| == 4
    ensures Recv(s, [Data(Pack(10)), Data(a), Data(b), Data(c)] + rest)
            == Step(Ok(a + b + c[..1]), s, [Data(c[1..])] + rest, [])
  {
    var tail := [Data(a), Data(b), Data(c)] + rest;
    HeadDelivery(Pack(10), tail, s.sock.timed);
    ThreePiecesLoseBytes(a, b, c, rest, s.sock.timed);
    RecvStep(s, [Data(Pack(10))] + tail, 10, tail, [a, a + b, a + b + c[..1]], [Data(c[1..])] + rest);
    assert [Data(Pack(10)), Data(a), Data(b), Data(c)] + rest == [Data(Pack(10))] + tail;
  }

  /** A header alone in the first delivery is what `recv(4)` returns. */
  lemma HeadDelivery(h: seq<Byte>, tail: seq<Event>, timed: bool)
    requires |h| == 4
    ensures Read([Data(h)] + tail, 4, timed) == Got(h, tail)
  {
    assert ([Data(h)] + tail)[1..] == tail;
  }

  /** When the peer closes right after announcing a payload, `recv` never
      returns. */
  lemma {:induction false} RecvHangsOnClose(s: Session, L: int, rest: seq<Event>)
    requires s.sock.Open? && 0 < L <= MaxInt32 && Closed(rest)
    ensures Recv(s, [Data(Pack(L))] + rest).result == Err(Hang)
  {
    assert ([Data(Pack(L))] + rest)[1..] == rest;
    UnpackPack(L);
  }

  /** Units a director sends inside one message: nothing in them ends the
      assembly. */
  predicate Body(c: Codes, us: seq<Unit>) {
    forall i :: 0 <= i < |us| ==> WellFormed(us[i]) && (us[i].Signal? ==> !Terminal(c, us[i].code))
  }

  /** The timeout mode the socket had before `recv_msg` makes no difference:
      every header read sets it afresh. */
  lemma LoopTimeoutMode(c: Codes, s: Session, inp: seq<Event>, msg: seq<Byte>)
    requires s.sock.Open?
    ensures RecvMsgLoop(c, s, inp, msg) == RecvMsgLoop(c, s.(sock := Open(true)), inp, msg)
  {
  }

  /** `recv_msg` on an open socket is its loop in timed mode. */
  lemma RecvMsgStart(c: Codes, s: Session, inp: seq<Event>)
    requires s.sock.Open?
    ensures RecvMsg(c, s, inp) == RecvMsgLoop(c, s.(sock := Open(true)), inp, [])
  {
    LoopTimeoutMode(c, s, inp, []);
  }

  /** One turn of `recv_msg`'s loop over a header announcing a payload. */
  lemma PayloadStep(c: Codes, s: Session, inp: seq<Event>, L: int, rest: seq<Event>,
                    bufs: seq<seq<Byte>>, rest': seq<Event>, msg: seq<Byte>)
    requires s.sock == Open(true) && 0 < L <= MaxInt32
    requires Read(inp, 4, true) == Got(Pack(L), rest)
    requires Drain(rest, L, [], false) == Filled(bufs, rest')
    ensures RecvMsgLoop(c, s, inp, msg) == RecvMsgLoop(c, s, rest', msg + Flatten(bufs))
  {
    UnpackPack(L);
  }

  /** One turn of `recv_msg`'s loop over a status header. */
  lemma SignalStep(c: Codes, s: Session, code: int, x: seq<Byte>, rest: seq<Event>, msg: seq<Byte>)
    requires s.sock == Open(true) && MinInt32 <= code <= 0
    ensures !Terminal(c, code) ==>
      RecvMsgLoop(c, s, Push(Pack(code) + x, rest), msg) == RecvMsgLoop(c, SetStatus(s, code), Push(x, rest), msg)
    ensures Terminal(c, code) ==>
      RecvMsgLoop(c, s, Push(Pack(code) + x, rest), msg) == Step(Ok(msg), SetStatus(s, code), Push(x, rest), [])
  {
    ReadWhole(Pack(code), x, rest, true);
    UnpackPack(code);
    assert msg + Flatten([]) == msg;
  }

  /** Reading the units of a plan appends their payloads to the message
      and leaves the status at their last signal; assembly then goes on
      with whatever follows them. */
  lemma {:induction false} RecvMsgPrefix(c: Codes, s: Session, ps: seq<Piece>, tail: seq<Byte>,
                                         rest: seq<Event>, msg: seq<Byte>)
    requires s.sock == Open(true) && Encodable(ps) && Body(c, Units(ps))
    ensures RecvMsgLoop(c, s, Deliver(Chunks(ps, tail), rest), msg)
            == RecvMsgLoop(c, s.(status := LastSignal(Units(ps), s.status)), Push(tail, rest),
                           msg + Payloads(Units(ps)))
    decreases |ps|
  {
    if |ps| == 0 {
      DeliverOne(tail, [], rest);
      assert [tail] + [] == [tail];
      assert msg + Payloads(Units(ps)) == msg;
      assert s.(status := s.status) == s;
    } else {
      var us := Units(ps);
      UnitsCons(ps);
      BodyTail(c, us);
      PieceStep(c, s, ps, tail, rest, msg);
      ConsFacts(s, us, msg);
      RecvMsgPrefix(c, NextStatus(s, ps[0].unit), ps[1..], tail, rest, msg + Carried(ps[0].unit));
    }
  }

  /** How the first unit splits off the status and the payloads. */
  lemma ConsFacts(s: Session, us: seq<Unit>, msg: seq<Byte>)
    requires |us| > 0
    ensures var s1 := NextStatus(s, us[0]);
            s1.(status := LastSignal(us[1..], s1.status)) == s.(status := LastSignal(us, s.status))
    ensures msg + Carried(us[0]) + Payloads(us[1..]) == msg + Payloads(us)
  {
    assert Payloads(us) == Carried(us[0]) + Payloads(us[1..]);
    AppendAssoc(msg, Carried(us[0]), Payloads(us[1..]));
  }

  lemma BodyTail(c: Codes, us: seq<Unit>)
    requires Body(c, us) && |us| > 0
    ensures Body(c, us[1..]) && WellFormed(us[0]) && (us[0].Signal? ==> !Terminal(c, us[0].code))
  {
    forall i | 0 <= i < |us[1..]|
      ensures WellFormed(us[1..][i]) && (us[1..][i].Signal? ==> !Terminal(c, us[1..][i].code))
    {
      assert us[1..][i] == us[i + 1];
    }
  }

  /** The status after reading one unit. */
  function NextStatus(s: Session, u: Unit): Session {
    if u.Signal? then SetStatus(s, u.code) else s
  }

  /** One turn of `recv_msg`'s loop over one unit, delivered whole, that
      does not end the message. */
  lemma {:induction false} UnitStep(c: Codes, s: Session, u: Unit, x: seq<Byte>, rest: seq<Event>, msg: seq<Byte>)
    requires s.sock == Open(true) && WellFormed(u) && (u.Signal? ==> !Terminal(c, u.code))
    ensures RecvMsgLoop(c, s, Push(Encode(u) + x, rest), msg)
            == RecvMsgLoop(c, NextStatus(s, u), Push(x, rest), msg + Carried(u))
  {
    if u.Chunk? {
      var p := u.payload;
      assert Encode(u) + x == Pack(|p|) + (p + x);
      ReadWhole(Pack(|p|), p + x, rest, true);
      DrainWhole(p, x, rest, false);
      PayloadStep(c, s, Push(Pack(|p|) + (p + x), rest), |p|, Push(p + x, rest), [p], Push(x, rest), msg);
      assert Flatten([p]) == p;
    } else {
      SignalStep(c, s, u.code, x, rest, msg);
      assert msg + [] == msg;
    }
  }

  /** One turn of `recv_msg`'s loop over a payload frame whose header came
      in a delivery of its own. */
  lemma {:induction false} SplitStep(c: Codes, s: Session, p: seq<Byte>, x: seq<Byte>, rest: seq<Event>, msg: seq<Byte>)
    requires s.sock == Open(true) && 0 < |p| <= MaxInt32
    ensures RecvMsgLoop(c, s, Push(Pack(|p|), Push(p + x, rest)), msg)
            == RecvMsgLoop(c, s, Push(x, rest), msg + p)
  {
    var y := Push(p + x, rest);
    ReadWhole(Pack(|p|), [], y, true);
    assert Pack(|p|) + [] == Pack(|p|);
    DrainWhole(p, x, rest, false);
    PayloadStep(c, s, Push(Pack(|p|), y), |p|, y, [p], Push(x, rest), msg);
    assert Flatten([p]) == p;
  }

  /** One turn of `recv_msg`'s loop over the first unit of a plan. */
  lemma {:induction false} PieceStep(c: Codes, s: Session, ps: seq<Piece>, tail: seq<Byte>,
                                     rest: seq<Event>, msg: seq<Byte>)
    requires s.sock == Open(true) && Encodable(ps) && |ps| > 0
    requires ps[0].unit.Signal? ==> !Terminal(c, ps[0].unit.code)
    ensures RecvMsgLoop(c, s, Deliver(Chunks(ps, tail), rest), msg)
            == RecvMsgLoop(c, NextStatus(s, ps[0].unit), Deliver(Chunks(ps[1..], tail), rest),
                           msg + Carried(ps[0].unit))
  {
    var u := ps[0].unit;
    FirstPiece(ps, tail, rest);
    var x, r := Lead(ps, tail), Behind(ps, tail, rest);
    assert WellFormed(u);
    if u.Chunk? && ps[0].splitHeader {
      SplitStep(c, s, u.payload, x, r, msg);
    } else {
      UnitStep(c, s, u, x, r, msg);
    }
  }

  /** Frames followed by a terminating status: `recv_msg` returns the
      concatenated payloads, records that status, and reads nothing after
      its header.  Non-terminating signals in between add no bytes. */
  lemma {:induction false} RecvMsgUntilStatus(c: Codes, s: Session, ps: seq<Piece>, t: int,
                                              more: seq<Byte>, rest: seq<Event>)
    requires s.sock.Open? && Encodable(ps) && Body(c, Units(ps)) && IsInt32(t) && Terminal(c, t)
    ensures RecvMsg(c, s, Deliver(Chunks(ps, Pack(t) + more), rest))
            == Step(Ok(Payloads(Units(ps))), s.(sock := Open(true), status := Some(t)), Push(more, rest), [])
  {
    var s0 := s.(sock := Open(true));
    RecvMsgStart(c, s, Deliver(Chunks(ps, Pack(t) + more), rest));
    RecvMsgPrefix(c, s0, ps, Pack(t) + more, rest, []);
    var s1 := s0.(status := LastSignal(Units(ps), s.status));
    AppendEmpty(Payloads(Units(ps)));
    SignalStep(c, s1, t, more, rest, Payloads(Units(ps)));
  }

  /** The prompt probe against a director that answers with a message
      ending in a terminating status: "." is sent once, the answer is
      drained up to that status, and the probe reports success. */
  lemma PromptScript(c: Codes, s: Session, ps: seq<Piece>, t: int, more: seq<Byte>, rest: seq<Event>)
    requires s.sock.Open? && Encodable(ps) && Body(c, Units(ps)) && IsInt32(t) && Terminal(c, t)
    ensures SetStateDirectorPrompt(c, s, Deliver(Chunks(ps, Pack(t) + more), rest))
            == Step(Ok(true), s.(sock := Open(true), status := Some(t)), Push(more, rest), [Frame(".")])
  {
    var inp := Deliver(Chunks(ps, Pack(t) + more), rest);
    assert |Pack(t) + more| >= 4;
    assert Chunks(ps, Pack(t) + more)[0] != [];
    assert Send(s, inp, ".") == Step(Ok(()), s, inp, [Frame(".")]);
    RecvMsgUntilStatus(c, s, ps, t, more, rest);
  }

  /** Frames followed by the peer closing: `recv_msg` returns what it has
      assembled without raising, and the status is the last signal read (or
      the one before the call if there was none). */
  lemma {:induction false} RecvMsgUntilClosed(c: Codes, s: Session, ps: seq<Piece>, rest: seq<Event>)
    requires s.sock.Open? && Encodable(ps) && Body(c, Units(ps)) && Closed(rest)
    ensures RecvMsg(c, s, Deliver(Chunks(ps, []), rest))
            == Step(Ok(Payloads(Units(ps))), s.(sock := Open(true), status := LastSignal(Units(ps), s.status)), rest, [])
  {
    var s0 := s.(sock := Open(true));
    RecvMsgStart(c, s, Deliver(Chunks(ps, []), rest));
    RecvMsgPrefix(c, s0, ps, [], rest, []);
    assert [] + Payloads(Units(ps)) == Payloads(Units(ps));
  }

  /** Frames followed by a socket error: `recv_msg` clears the socket and
      returns what it has assembled. */
  lemma {:induction false} RecvMsgSocketError(c: Codes, s: Session, ps: seq<Piece>, rest: seq<Event>)
    requires s.sock.Open? && Encodable(ps) && Body(c, Units(ps))
    ensures RecvMsg(c, s, Deliver(Chunks(ps, []), [Fail] + rest))
            == Step(Ok(Payloads(Units(ps))), s.(sock := NoSocket, status := LastSignal(Units(ps), s.status)), rest, [])
  {
    var s0 := s.(sock := Open(true));
    RecvMsgStart(c, s, Deliver(Chunks(ps, []), [Fail] + rest));
    RecvMsgPrefix(c, s0, ps, [], [Fail] + rest, []);
    assert ([Fail] + rest)[1..] == rest;
    assert [] + Payloads(Units(ps)) == Payloads(Units(ps));
  }

  function Timeouts(k: nat): (ts: seq<Event>)
    ensures |ts| == k && forall i :: 0 <= i < k ==> ts[i] == Timeout
  {
    if k == 0 then [] else [Timeout] + Timeouts(k - 1)
  }

  /** Timeouts while waiting for a header change nothing: `recv_msg` just
      tries again. */
  lemma {:induction false} RecvMsgIgnoresTimeouts(c: Codes, s: Session, k: nat, inp: seq<Event>)
    requires s.sock.Open?
    ensures RecvMsg(c, s, Timeouts(k) + inp) == RecvMsg(c, s, inp)
  {
    LoopSkipsTimeouts(c, s, k, inp, []);
    LoopTimeoutMode(c, s, inp, []);
  }

  lemma {:induction false} LoopSkipsTimeouts(c: Codes, s: Session, k: nat, inp: seq<Event>, msg: seq<Byte>)
    requires s.sock.Open?
    ensures RecvMsgLoop(c, s, Timeouts(k) + inp, msg) == RecvMsgLoop(c, s.(sock := Open(true)), inp, msg)
    decreases k
  {
    if k == 0 {
      assert Timeouts(k) + inp == inp;
      LoopTimeoutMode(c, s, inp, msg);
    } else {
      assert (Timeouts(k) + inp)[0] == Timeout;
      assert (Timeouts(k) + inp)[1..] == Timeouts(k - 1) + inp;
      LoopSkipsTimeouts(c, s.(sock := Open(true)), k - 1, inp, msg);
    }
  }

  /** One payload followed by a terminating status. */
  lemma PayloadThenStatus(c: Codes, s: Session, inp: seq<Event>, L: int, tail: seq<Event>,
                          bufs: seq<seq<Byte>>, t: int, more: seq<Byte>, rest: seq<Event>)
    requires s.sock.Open? && 0 < L <= MaxInt32 && IsInt32(t) && Terminal(c, t)
    requires Read(inp, 4, true) == Got(Pack(L), tail)
    requires Drain(tail, L, [], false) == Filled(bufs, Push(Pack(t) + more, rest))
    ensures RecvMsg(c, s, inp) == Step(Ok(Flatten(bufs)), s.(sock := Open(true), status := Some(t)), Push(more, rest), [])
  {
    var s0 := s.(sock := Open(true));
    RecvMsgStart(c, s, inp);
    PayloadStep(c, s0, inp, L, tail, bufs, Push(Pack(t) + more, rest), []);
    SignalStep(c, s0, t, more, rest, [] + Flatten(bufs));
    assert [] + Flatten(bufs) == Flatten(bufs);
  }

  /** A payload delivered in two pieces: `recv_msg` appends the buffer after
      each piece, so the first piece ends up in the message twice. */
  lemma {:induction false} RecvMsgTwoPieces(c: Codes, s: Session, a: seq<Byte>, b: seq<Byte>, t: int,
                                            more: seq<Byte>, rest: seq<Event>)
    requires s.sock.Open? && |a| > 0 && |b| > 0 && |a| + |b| <= MaxInt32
    requires IsInt32(t) && Terminal(c, t)
    ensures RecvMsg(c, s, Push(Pack(|a| + |b|), Push(a, Push(b, Push(Pack(t) + more, rest)))))
            == Step(Ok(a + (a + b)), s.(sock := Open(true), status := Some(t)), Push(more, rest), [])
  {
    var after := Push(Pack(t) + more, rest);
    var tail := Push(a, Push(b, after));
    var inp := Push(Pack(|a| + |b|), tail);
    assert Read(inp, 4, true) == Got(Pack(|a| + |b|), tail);
    assert tail == [Data(a), Data(b)] + after;
    DrainTwoPieces(a, b, after, false);
    PayloadThenStatus(c, s, inp, |a| + |b|, tail, [a, a + b], t, more, rest);
    assert Flatten([a, a + b]) == a + (a + b);
  }
}

=== FILE: text.dfy ===
/** The string operations the handshake applies to protocol lines:
    `str.split(" ")`, `str.strip(chr(0))`, and the `%u` / `%d` decimal
    rendering of a non-negative integer. */
module Text {
  import opened Base

  const Space: Byte := ' '
  const Nul: Byte := '\0'

  /** The fields joined back with the separator between them. */
  function Join(fields: seq<seq<Byte>>, sep: Byte): seq<Byte>
    requires |fields| > 0
  {
    if |fields| == 1 then fields[0] else fields[0] + [sep] + Join(fields[1..], sep)
  }

  /** Position of the first `sep` in `s`. */
  function IndexOf(s: seq<Byte>, sep: Byte): (i: nat)
    requires sep in s
    ensures i < |s| && s[i] == sep && sep !in s[..i]
  {
    if s[0] == sep then 0
    else
      var j := IndexOf(s[1..], sep);
      assert s[..j + 1] == [s[0]] + s[1..][..j];
      j + 1
  }

  /** Python's `s.split(sep)` with an explicit one-byte separator: empty
      fields are kept, and there is always at least one field. */
  function Split(s: seq<Byte>, sep: Byte): (fields: seq<seq<Byte>>)
    ensures |fields| > 0
    ensures forall i :: 0 <= i < |fields| ==> sep !in fields[i]
    decreases |s|
  {
    if sep !in s then [s]
    else
      var i := IndexOf(s, sep);
      [s[..i]] + Split(s[i + 1..], sep)
  }

  /** Splitting loses nothing: joining the fields gives the line back. */
  lemma {:induction false} JoinSplit(s: seq<Byte>, sep: Byte)
    ensures Join(Split(s, sep), sep) == s
    decreases |s|
  {
    if sep in s {
      var i := IndexOf(s, sep);
      JoinSplit(s[i + 1..], sep);
      assert s == s[..i] + [sep] + s[i + 1..];
    }
  }

  /** Splitting at the first separator. */
  lemma SplitCons(a: seq<Byte>, b: seq<Byte>, sep: Byte)
    requires sep !in a
    ensures Split(a + [sep] + b, sep) == [a] + Split(b, sep)
  {
    var s := a + [sep] + b;
    assert s[|a|] == sep;
    assert forall k :: 0 <= k < |a| ==> s[k] == a[k];
    var i := IndexOf(s, sep);
    assert i == |a|;
    assert s[..i] == a;
    assert s[i + 1..] == b;
  }

  /** A line built from separator-free fields splits into exactly those
      fields. */
  lemma {:induction false} SplitJoin(fields: seq<seq<Byte>>, sep: Byte)
    requires |fields| > 0
    requires forall i :: 0 <= i < |fields| ==> sep !in fields[i]
    ensures Split(Join(fields, sep), sep) == fields
    decreases |fields|
  {
    if |fields| > 1 {
      assert sep !in fields[0];
      assert forall i :: 0 <= i < |fields[1..]| ==> sep !in fields[1..][i] by {
        forall i | 0 <= i < |fields[1..]| ensures sep !in fields[1..][i] {
          assert fields[1..][i] == fields[i + 1];
        }
      }
      SplitJoin(fields[1..], sep);
      SplitCons(fields[0], Join(fields[1..], sep), sep);
      assert fields == [fields[0]] + fields[1..];
    } else {
      assert Join(fields, sep) == fields[0];
    }
  }

  predicate AllNul(s: seq<Byte>) {
    forall i :: 0 <= i < |s| ==> s[i] == Nul
  }

  /** The end of the run of NUL bytes that starts at `i`. */
  function NulRunEnd(s: seq<Byte>, i: nat): (k: nat)
    requires i <= |s|
    ensures i <= k <= |s| && (forall m :: i <= m < k ==> s[m] == Nul) && (k == |s| || s[k] != Nul)
    decreases |s| - i
  {
    if i < |s| && s[i] == Nul then NulRunEnd(s, i + 1) else i
  }

  /** The start of the run of NUL bytes that ends at `j`, going no lower
      than `lo`. */
  function NulRunStart(s: seq<Byte>, lo: nat, j: nat): (k: nat)
    requires lo <= j <= |s|
    ensures lo <= k <= j && (forall m :: k <= m < j ==> s[m] == Nul) && (k == lo || s[k - 1] != Nul)
    decreases j
  {
    if j > lo && s[j - 1] == Nul then NulRunStart(s, lo, j - 1) else j
  }

  /** `s.strip(chr(0))`: the NUL bytes at both ends removed. The result is
      the part of `s` between an all-NUL prefix and an all-NUL suffix and
      neither starts nor ends with NUL. */
  function StripNul(s: seq<Byte>): (r: seq<Byte>)
    ensures exists i, j :: 0 <= i <= j <= |s| && r == s[i..j] && AllNul(s[..i]) && AllNul(s[j..])
    ensures r == [] || (r[0] != Nul && r[|r| - 1] != Nul)
  {
    var i := NulRunEnd(s, 0);
    var j := NulRunStart(s, i, |s|);
    assert AllNul(s[..i]) by {
      forall m | 0 <= m < i ensures s[..i][m] == Nul { assert s[..i][m] == s[m]; }
    }
    assert AllNul(s[j..]) by {
      forall m | 0 <= m < |s| - j ensures s[j..][m] == Nul { assert s[j..][m] == s[j + m]; }
    }
    assert j > i ==> s[i..j][0] == s[i] && s[i..j][j - i - 1] == s[j - 1];
    s[i..j]
  }

  /** The `n` NUL bytes. */
  function Nuls(n: nat): (z: seq<Byte>)
    ensures |z| == n && AllNul(z)
  {
    if n == 0 then [] else [Nul] + Nuls(n - 1)
  }

  /** The stripped string is determined by where the padding ends: any
      split of `s` into NUL bytes, a part that neither starts nor ends with
      NUL, and NUL bytes again strips to that part. */
  lemma StripNulBetween(s: seq<Byte>, i: nat, j: nat)
    requires i <= j <= |s|
    requires forall m :: 0 <= m < i ==> s[m] == Nul
    requires forall m :: j <= m < |s| ==> s[m] == Nul
    requires i < j ==> s[i] != Nul && s[j - 1] != Nul
    ensures StripNul(s) == s[i..j]
  {
    var i' := NulRunEnd(s, 0);
    if i < j {
      assert i' == i;
      assert NulRunStart(s, i, |s|) == j;
    } else {
      assert i' == |s|;
    }
  }

  /** A reply that is padded with NUL bytes on either side strips back to the
      reply itself. */
  lemma StripNulPadding(x: seq<Byte>, before: nat, after: nat)
    requires x == [] || (x[0] != Nul && x[|x| - 1] != Nul)
    ensures StripNul(Nuls(before) + x + Nuls(after)) == x
  {
    var s := Nuls(before) + x + Nuls(after);
    var j := before + |x|;
    forall m | 0 <= m < before ensures s[m] == Nul {
      assert s[m] == Nuls(before)[m];
    }
    forall m | j <= m < |s| ensures s[m] == Nul {
      assert s[m] == Nuls(after)[m - j];
    }
    if x != [] {
      assert s[before] == x[0];
      assert s[j - 1] == x[|x| - 1];
    }
    assert s[before..j] == x;
    StripNulBetween(s, before, j);
  }

  predicate IsDigit(c: Byte) {
    '0' <= c <= '9'
  }

  function DigitChar(d: int): (c: Byte)
    requires 0 <= d < 10
    ensures IsDigit(c) && c as int - '0' as int == d
  {
    ('0' as int + d) as char
  }

  /** The decimal digits of `n`, as `"%u" % n` or `"%d" % n` renders it. */
  function Decimal(n: nat): (s: seq<Byte>)
    ensures |s| > 0
    ensures forall i :: 0 <= i < |s| ==> IsDigit(s[i])
  {
    if n < 10 then [DigitChar(n)] else Decimal(n / 10) + [DigitChar(n % 10)]
  }

  /** The value of a string of decimal digits. */
  function DigitsValue(s: seq<Byte>): int
    requires forall i :: 0 <= i < |s| ==> IsDigit(s[i])
  {
    if |s| == 0 then 0
    else 10 * DigitsValue(s[..|s| - 1]) + (s[|s| - 1] as int - '0' as int)
  }

  /** Rendering loses nothing: the digits read back as `n`, and there is no
      leading zero. */
  lemma {:induction false} DecimalValue(n: nat)
    ensures DigitsValue(Decimal(n)) == n
    ensures Decimal(n)[0] == '0' ==> n == 0
  {
    if n >= 10 {
      DecimalValue(n / 10);
      var s := Decimal(n);
      assert s[..|s| - 1] == Decimal(n / 10);
    }
  }

  /** The length of the rendering is the number of decimal digits of `n`:
      at most `k` digits exactly when `n < 10^k`. */
  lemma {:induction false} DecimalLength(n: nat, k: nat)
    ensures |Decimal(n)| <= k + 1 <==> n < Pow10(k + 1)
  {
    if n >= 10 {
      if k > 0 { DecimalLength(n / 10, k - 1); }
      else { assert |Decimal(n)| >= 2; }
    }
  }

  function Pow10(k: nat): (p: nat)
    ensures p >= 1
  {
    if k == 0 then 1 else 10 * Pow10(k - 1)
  }
}

=== FILE: transport.dfy ===
/** The socket seen from the client: a script of what each `recv` or
    `sendall` meets.  `Data(b)` is one delivery of bytes (a `recv(n)` takes
    at most `n` of them and the remainder stays for the next call),
    `Timeout` is a read timeout, `Fail` a socket error.  An empty delivery,
    or the end of the script, is the peer having closed the connection:
    every later `recv` returns the empty string and nothing is consumed. */
module Transport {
  import opened Base

  datatype Event = Data(bytes: seq<Byte>) | Timeout | Fail

  /** A measure of how much is left in the script. */
  function Size(inp: seq<Event>): nat {
    if |inp| == 0 then 0
    else (if inp[0].Data? then 1 + |inp[0].bytes| else 1) + Size(inp[1..])
  }

  /** The peer has closed: reads see an empty string from here on. */
  predicate Closed(inp: seq<Event>) {
    |inp| == 0 || inp[0] == Data([])
  }

  /** The next `sendall` meets no socket error. */
  predicate Writable(inp: seq<Event>) {
    |inp| == 0 || !inp[0].Fail?
  }

  /** `b` delivered in one piece in front of `rest`. */
  function Push(b: seq<Byte>, rest: seq<Event>): (inp: seq<Event>)
    ensures b == [] ==> inp == rest
    ensures b != [] ==> |inp| == |rest| + 1 && inp[0] == Data(b) && inp[1..] == rest
    ensures b != [] ==> Writable(inp)
  {
    if |b| == 0 then rest else [Data(b)] + rest
  }

  datatype ReadOutcome =
    | Got(bytes: seq<Byte>, rest: seq<Event>)
    | TimedOut(rest: seq<Event>)
    | Errored(rest: seq<Event>)

  /** `socket.recv(n)`.  A timed socket raises `socket.timeout` on a
      `Timeout`; a blocking one waits past it. */
  function Read(inp: seq<Event>, n: int, timed: bool): (r: ReadOutcome)
    requires n > 0
    ensures r.Got? ==> |r.bytes| <= n
    ensures r.Got? && r.bytes == [] ==> Closed(r.rest) && Size(r.rest) <= Size(inp)
    ensures r.Got? && r.bytes != [] ==> Size(r.rest) + |r.bytes| <= Size(inp)
    ensures !r.Got? ==> Size(r.rest) < Size(inp)
    ensures Closed(inp) ==> r == Got([], inp)
    ensures !timed ==> !r.TimedOut?
    decreases |inp|
  {
    if |inp| == 0 then Got([], inp)
    else match inp[0]
      case Data(b) =>
        if |b| == 0 then Got([], inp)
        else if |b| <= n then Got(b, inp[1..])
        else Got(b[..n], [Data(b[n..])] + inp[1..])
      case Timeout => if timed then TimedOut(inp[1..]) else Read(inp[1..], n, timed)
      case Fail => Errored(inp[1..])
  }

  /** When the next delivery holds at least `n` bytes, `recv(n)` returns
      exactly the first `n` of them and leaves the others in place. */
  lemma ReadWhole(b: seq<Byte>, more: seq<Byte>, rest: seq<Event>, timed: bool)
    requires |b| > 0
    ensures Read(Push(b + more, rest), |b|, timed) == Got(b, Push(more, rest))
  {
    assert (b + more)[..|b|] == b;
    assert (b + more)[|b|..] == more;
  }

  datatype DrainOutcome =
    | Filled(bufs: seq<seq<Byte>>, rest: seq<Event>)
    | Broken(timedOut: bool, bufs: seq<seq<Byte>>, rest: seq<Event>)
    | Spins

  /** Each buffer value extends the one before it, starting from `buf`. */
  predicate Growing(buf: seq<Byte>, bufs: seq<seq<Byte>>)
    decreases |bufs|
  {
    |bufs| == 0 ||
    (|buf| <= |bufs[0]| && bufs[0][..|buf|] == buf && Growing(bufs[0], bufs[1..]))
  }

  /** One more iteration in front of the outcome of the remaining ones. */
  function Extend(buf: seq<Byte>, d: DrainOutcome): DrainOutcome {
    match d
    case Filled(bs, r) => Filled([buf] + bs, r)
    case Broken(t, bs, r) => Broken(t, [buf] + bs, r)
    case Spins => Spins
  }

  /** The payload loop that `recv` and `recv_msg` share:
        while L > 0: buf += recv(L); L -= len(buf)
      The outcome lists the successive values of `buf`, one per iteration.
      The count is decreased by the size of the whole buffer, not of the
      piece just received.  `Spins` is the case where the peer closes before
      the first payload byte: `buf` and `L` never change, so the loop never
      ends.  `Broken` is a `recv` that raised. */
  function Drain(inp: seq<Event>, L: int, buf: seq<Byte>, timed: bool): (r: DrainOutcome)
    ensures L <= 0 ==> r == Filled([], inp)
    ensures r.Spins? ==> buf == [] && L > 0
    ensures !r.Spins? ==> Size(r.rest) <= Size(inp)
    ensures r.Broken? ==> timed || !r.timedOut
    ensures !r.Spins? ==> Growing(buf, r.bufs)
    ensures !r.Spins? && |r.bufs| > 0 ==> r.bufs[0] != []
    ensures r.Filled? && L > 0 ==> |r.bufs| > 0
    decreases if L > 0 then L else 0
  {
    if L <= 0 then Filled([], inp)
    else match Read(inp, L, timed)
      case TimedOut(rest) => Broken(true, [], rest)
      case Errored(rest) => Broken(false, [], rest)
      case Got(b, rest) =>
        var buf' := buf + b;
        if |buf'| == 0 then Spins
        else
          var d := Drain(rest, L - |buf'|, buf', timed);
          assert !d.Spins? ==> ([buf'] + d.bufs)[1..] == d.bufs;
          Extend(buf', d)
  }

  /** Once the peer has closed, the payload loop of an empty buffer spins. */
  lemma {:induction false} DrainSpinsOnlyWhenClosed(inp: seq<Event>, L: int, timed: bool)
    requires L > 0
    ensures Drain(inp, L, [], timed).Spins? <==> Read(inp, L, timed).Got? && Read(inp, L, timed).bytes == []
  {
  }

  /** A payload delivered in one piece is read by one iteration. */
  lemma {:induction false} DrainWhole(p: seq<Byte>, more: seq<Byte>, rest: seq<Event>, timed: bool)
    requires |p| > 0
    ensures Drain(Push(p + more, rest), |p|, [], timed) == Filled([p], Push(more, rest))
  {
    ReadWhole(p, more, rest, timed);
    assert [] + p == p;
  }

  /** A payload delivered in two pieces: the second iteration asks for the
      remaining count, gets it, and then subtracts the whole buffer, which
      ends the loop with both buffer values listed. */
  lemma {:induction false} DrainTwoPieces(a: seq<Byte>, b: seq<Byte>, rest: seq<Event>, timed: bool)
    requires |a| > 0 && |b| > 0
    ensures Drain([Data(a), Data(b)] + rest, |a| + |b|, [], timed) == Filled([a, a + b], rest)
  {
    var inp := [Data(a), Data(b)] + rest;
    assert Read(inp, |a| + |b|, timed) == Got(a, [Data(b)] + rest);
    assert [] + a == a;
    assert ([Data(b)] + rest)[1..] == rest;
    assert Read([Data(b)] + rest, |b|, timed) == Got(b, rest);
    assert Drain(rest, |b| - |a + b|, a + b, timed) == Filled([], rest);
  }

  /** A 10-byte payload delivered as 3, 3 and 4 bytes: the third `recv` is
      asked for one byte only, and the loop stops with seven of the ten bytes
      read and three left in the socket. */
  lemma {:induction false} ThreePiecesLoseBytes(a: seq<Byte>, b: seq<Byte>, c: seq<Byte>,
                                                rest: seq<Event>, timed: bool)
    requires |a| == 3 && |b| == 3 && |c| == 4
    ensures Drain([Data(a), Data(b), Data(c)] + rest, 10, [], timed)
            == Filled([a, a + b, a + b + c[..1]], [Data(c[1..])] + rest)
  {
    var inp3 := [Data(c)] + rest;
    var inp2 := [Data(b)] + inp3;
    assert [Data(a), Data(b), Data(c)] + rest == [Data(a)] + inp2;
    assert ([Data(a)] + inp2)[1..] == inp2 && inp2[1..] == inp3 && inp3[1..] == rest;
    assert Read(inp3, 1, timed) == Got(c[..1], [Data(c[1..])] + rest);
    assert Drain(inp3, 1, a + b, timed) == Filled([a + b + c[..1]], [Data(c[1..])] + rest);
    assert Read(inp2, 7, timed) == Got(b, inp3);
    assert Drain(inp2, 7, a, timed) == Filled([a + b, a + b + c[..1]], [Data(c[1..])] + rest);
    assert Read([Data(a)] + inp2, 10, timed) == Got(a, inp2);
    assert [] + a == a;
  }
}
